=== FILE: README.md ===
# doc-converter in Dafny

A model of the document converter in `src/script.py`. The converter mirrors
a folder of source documents (`docs/`) into a folder of Markdown files
(`output/`), one output per source stem:

- Markdown and plain-text sources are copied verbatim.
- Every other supported format goes through an extraction tool (MinerU) and
  then through a correction service (an Ollama model). The correction works
  on overlapping windows of at most 2500 characters and falls back to the
  raw text whenever the service does not answer usefully.
- Outputs whose source has disappeared are deleted.
- Everything that changed is committed and pushed, with a single retry over a
  token-authenticated HTTPS URL when the first push fails.

The model is written in pure functions over immutable data. It has these
modules:

- `Wrappers`: `Option`.
- `Text`: Python's `str.strip` over the `str.isspace` character set, and
  `startswith`.
- `Paths`: `pathlib`'s `suffix` and `stem`, lower-casing of extensions, the
  supported and plain-text extension sets, and output naming.
- `Chunking`:
  - the window split of the chunked correction: the loop as written, and a
    terminating version;
  - the overlap-trimming reconstruction;
  - the round trip.
- `Correction`: one correction request with its fallback, and the chunked
  correction built on it.
- `Staleness`: the change markers (commit time or modification time), the
  selection filter of `main`, and the up-to-date test of
  `process_single_file`.
- `Reconcile`: orphan cleanup.
- `Conversion`: `process_single_file` against an output folder, modelled as
  a map from file name to content and markers.
- `Publish`: `commit_and_push`, as a sequence of repository events.
- `Pipeline`: `main`. It covers selection, the processing loop, change
  aggregation and publication, plus the run-level properties when the source folder exists: no
  orphans are left, and, when no repository is used and the clock is not behind
  any source's modification time, a second run does nothing.

Everything outside the program is a parameter:

- the extraction tool, as a function from source to optional Markdown;
- the correction service, as a function from text to `Reply`;
- which output writes fail, as a set of names;
- the clock, as `now`;
- whether a repository is available, as `repo`;
- the remote and the outcome of each push.

## Model

| member | source | states |
|---|---|---|
| Text.Strip | src/script.py:191 | The stripped reply is the slice of the reply between a leading and a trailing run of whitespace, in the sense of Python's `isspace`, and has no whitespace at either end. It is empty exactly when the reply is all whitespace. A reply without outer whitespace is returned unchanged. |
| Text.StripIdempotent | src/script.py:191 | Stripping twice gives the same result as stripping once. |
| Paths.StemSuffixSplit | src/script.py:298-300 | A name is its stem followed by its suffix. A non-empty suffix starts with its only dot and has at least one more character. A non-empty name has a non-empty stem. |
| Paths.Lower | src/script.py:300 | Lower-casing keeps the length and maps exactly the ASCII capitals to their small letters, position by position. |
| Paths.LowerKeepsLowercase | src/script.py:44 | A name without capitals is its own lower-case form, so the lower-case extension constants match themselves. |
| Paths.PlainTextIsSupported | src/script.py:272 | Every extension that is copied verbatim (`.md`, `.txt`) is also a supported extension. |
| Paths.OutputNameRoundTrip | src/script.py:342 | The output name `<stem>.md` of any non-empty source name matches the `*.md` glob of the cleanup, and its stem is the source's stem. |
| Paths.OutputNamesCollide | src/script.py:361 | `report.pdf` and `report.txt` both map to `report.md`. |
| Chunking.WindowCountBounds | src/script.py:222-228 | Window `i` exists exactly when it is the first window of a non-empty text, or when window `i-1` ends before the end of the text. |
| Chunking.WindowAt | src/script.py:222-226 | Window `i` starts at `i*2300` and is the slice of at most 2500 characters from there. |
| Chunking.WindowsShape | src/script.py:215-228 | A text of at most 2500 characters is its own single window. Every window but the last has exactly 2500 characters. The last window reaches the end of the text. |
| Chunking.ConsecutiveWindowsOverlap | src/script.py:223-226 | Consecutive windows share exactly 200 characters: the last 200 characters of a window begin the next one. The next window is longer than 200 characters. |
| Chunking.WindowsCover | src/script.py:222-226 | Every character of the text lies in some window. |
| Chunking.SplitIntoWindows | src/script.py:220-228 | The splitting loop, with its exit condition corrected, terminates and yields exactly the windows. |
| Chunking.AsWrittenSplitNeverExits | src/script.py:222-228 | For a text longer than 2500 characters, the loop as written never leaves through either exit. Every iteration appends one more chunk. |
| Chunking.AsWrittenSplitRepeatsTail | src/script.py:222-228 | Once the loop as written reaches the last 200 characters, it appends that same 200-character tail forever. |
| Chunking.AsWrittenSplitFrom | src/script.py:220-228 | From any start, the loop as written first appends exactly the windows of the rest of the text, then continues from the last 200 characters. |
| Chunking.AsWrittenSplitIsWindowsThenTail | src/script.py:220-228 | From the start of a text longer than 2500 characters, the loop as written appends the windows of the corrected split and then, on each further pass, the last 200 characters again. |
| Chunking.Parts | src/script.py:237-245 | There is one part per corrected chunk, and the first part is the first chunk. |
| Chunking.TrimIsSuffix | src/script.py:241-245 | The piece appended for a chunk is a suffix of that chunk. It is either the whole chunk, or the chunk without its first `min(len, 200)` characters. |
| Chunking.StitchStep | src/script.py:237-245 | Each part after the first is its chunk with the first 200 characters dropped when the chunk starts with the last 200 characters of the previous part, and the whole chunk otherwise. Each part is a suffix of its chunk. |
| Chunking.StitchWindowsRoundTrip | src/script.py:220-247 | Reconstructing the uncorrected windows of a non-empty text gives back exactly that text. |
| Chunking.StitchDropsMoreThanMatched | src/script.py:241-243 | When a part is shorter than 200 characters, its whole tail can match and 200 characters are still dropped. For chunks `x` and `x` followed by 200 `y`s, the result is `xy`. |
| Correction.CorrectOnce | src/script.py:186-203 | A reply with status 200 and non-blank text gives that text stripped. A request error, another status, or a blank response gives the input unchanged. A 200 whose payload has no usable `response` field raises. The result is empty only for an empty input. |
| Correction.CorrectAll | src/script.py:230-234 | Each window is corrected with its own request. The list exists exactly when no window's request raises, has one result per window, and each result is that window's own correction. |
| Correction.CorrectChunked | src/script.py:206-249 | A text of at most 2500 characters is corrected in one request. A non-empty text never yields an empty result. |
| Correction.ChunkedAbortsOnRaise | src/script.py:230-234 | For a long text, the chunked correction succeeds exactly when no window's request raises. |
| Correction.FallbackKeepsText | src/script.py:202-203 | When the service never gives a usable answer, the chunked correction returns the raw text exactly, for texts of every length. |
| Correction.FailingWindowKeepsItsSlice | src/script.py:233 | For a long text whose windows are all corrected, a window whose request falls back has its raw slice as its corrected text. |
| Correction.SixThousandCharacters | src/script.py:220-228 | 6000 characters give three windows, of 2500, 2500 and 1400 characters. |
| Staleness.CommitTime | src/script.py:65-74 | The commit time is the last commit's time for an existing path with history and a repository, and 0 in every other case. |
| Staleness.FilesystemSkipIsNotSelected | src/script.py:264-267 | Without a repository, the per-file skip test is exactly the negation of the selection filter. |
| Staleness.GitSkipIsNotNewer | src/script.py:258-263 | With a repository, a file is skipped exactly when its commit time is not newer than its output's. Equal commit times are skipped. |
| Staleness.SelectedYetSkipped | src/script.py:258-263 | Every file that is not selected would be skipped. A selected file is skipped exactly in git mode, when its output is missing and its own commit time is at most 0. |
| Staleness.UnconvertibleSource | src/script.py:258-263 | A source without commit history and without an output is selected by `main` and then skipped by `process_single_file`. |
| Staleness.SkipIntendedIsNotSelected | src/script.py:343-348 | The intended skip test is the exact negation of the selection filter in both modes. A missing output is never skipped. |
| Reconcile.Orphans | src/script.py:303-309 | The deleted names are exactly the listed `*.md` files whose stem no supported source has. |
| Reconcile.OrphansInListingOrder | src/script.py:303-309 | Deletion keeps the listing order. The orphans of two listings, one after the other, are the orphans of the first followed by those of the second, and a single listed name is deleted exactly when it is an orphan. |
| Reconcile.CleanupOrphanedOutputs | src/script.py:293-309 | Nothing is deleted when the source folder is missing. Otherwise exactly the listed `*.md` files with no supported source of the same stem are deleted. |
| Reconcile.SurvivorsHaveSources | src/script.py:303-308 | With the source folder present, a listed Markdown file that survives cleanup has a supported source with its stem. |
| Reconcile.DeletesExactlyB | src/script.py:293-309 | With outputs `a.md`, `b.md`, `c.md` and sources `a.pdf`, `c.txt`, exactly `b.md` is deleted. |
| Conversion.ProcessSingleFile | src/script.py:252-290 | A file is skipped exactly when the up-to-date test as written passes: in git mode its commit time is at most its output's, a missing output counting as 0; otherwise the output exists and is not older. A copy holds the source's bytes and modification time. A conversion holds the chunked correction of a non-empty extraction, stamped with the current time. Failure happens exactly on a failing write, an empty or failed extraction, or a raising correction, and leaves the folder unchanged. Only the file's own output changes. |
| Conversion.PlainTextIsCopied | src/script.py:272-276 | A `.md` or `.txt` source that the up-to-date test does not skip, and whose output can be written, is copied byte for byte. |
| Conversion.ConvertedUnderOutageIsExtraction | src/script.py:279-287 | When the correction service is down, a converted output holds exactly the extracted text. |
| Conversion.WrittenOutputIsFresh | src/script.py:272-287 | Without a repository and with a clock not behind the source's modification time, a freshly written output is no longer selected for its source. |
| Conversion.SelectedButNeverProcessed | src/script.py:258-263 | In git mode, a source without commit history and without an output is selected by `main`, yet processing skips it and leaves the folder as it was. |
| Publish.PushWithFallback | src/script.py:120-139 | The first event is the push to the configured URL. A retry happens exactly when that push fails and a token is set, and then the next events are setting the token URL and pushing to it. The status is a primary push exactly when the first push succeeds, a token push exactly when the retry succeeds, and a failure in every other case. The remote ends at the token URL after a successful retry, and at its original URL otherwise. No commit is made here. |
| Publish.CommitAndPush | src/script.py:98-139 | Without a repository, or without changes, nothing happens and the status says which. Otherwise there is exactly one commit, preceded by staging the changed and deleted files, and followed by exactly the pushes, final URL and status of the push with its fallback: one or two pushes. |
| Publish.FailedPushWithoutToken | src/script.py:136-139 | Without a token, a failed push leaves one local commit, one push attempt, a failure status and the original URL. |
| Pipeline.SupportedSources | src/script.py:334-337 | The candidates are exactly the sources with a supported extension. |
| Pipeline.SelectStale | src/script.py:340-348 | The selected sources are exactly those that pass the selection filter against the folder as it was before processing. |
| Pipeline.ProcessAll | src/script.py:359-363 | There is one outcome per selected source, and at most one changed output per source. |
| Pipeline.ChangedOutputsMembers | src/script.py:359-363 | A name is among the changed outputs exactly when some source that was copied or converted has it as its output. |
| Pipeline.ProcessAllChanged | src/script.py:359-363 | The changed list of the processing loop names, in order, the outputs of exactly the sources that were copied or converted. |
| Pipeline.ProcessAllFrame | src/script.py:359-363 | After the processing loop, the folder holds exactly the files it held before plus the changed outputs, and every file not listed as changed is untouched. |
| Pipeline.Run | src/script.py:312-371 | Orphans are deleted and never recreated. Selection is done against the folder after cleanup. When the source folder exists, the selected files are exactly those the filter passes, and the outcomes, changed list and final folder are those of the per-file processing applied to them in order. Changed outputs exist. Files neither deleted nor changed are untouched. A commit is made exactly when a repository exists, the source folder exists, and something was changed or deleted. |
| Pipeline.NoOrphanRewritten | src/script.py:359-363 | No output written during processing is an orphan or one of the deleted files. |
| Pipeline.NoOrphansLeft | src/script.py:326-367 | After a run with the source folder present, no Markdown file in the output folder lacks a supported source with its stem. |
| Pipeline.FreshIsNotSelected | src/script.py:347-348 | Without a repository, an output that exists and is not older than its source is exactly what keeps the source from being selected. |
| Pipeline.ProcessingKeepsFresh | src/script.py:264-287 | Without a repository and with a clock not behind the source, processing never makes an output older. A source whose processing did not fail is fresh afterwards. |
| Pipeline.AllKeepFresh | src/script.py:359-363 | Without a repository and with a clock not behind any processed source's modification time, the processing loop keeps every fresh source fresh. |
| Pipeline.ProcessedAreFresh | src/script.py:359-363 | Without a repository and with a clock not behind any processed source's modification time, every processed source whose processing did not fail is fresh after the whole loop. |
| Pipeline.FreshAfterLoop | src/script.py:340-363 | Without a repository, with a clock not behind any candidate's modification time, and when no processing fails, every candidate is fresh after the loop: the selected ones because they were processed, the others because they were fresh already. |
| Pipeline.FreshAfterRun | src/script.py:326-363 | Without a repository, with a clock not behind any source's modification time, after a run with the source folder present and no failures, every supported source is fresh. |
| Reconcile.NothingToDelete | src/script.py:303-309 | A listing without orphans gives an empty deletion list. |
| Pipeline.SettledRunIsQuiet | src/script.py:340-355 | Without a repository and with the source folder present, a run over a folder with no orphans and only fresh sources deletes, selects, changes and publishes nothing. |
| Pipeline.RunIsIdempotent | src/script.py:312-371 | Without a repository, with a clock not behind any source's modification time, and with the source folder present, a second run after a run with no failures deletes, selects, changes and publishes nothing. |

## Left out

- Repository acquisition (`clone_or_update_repo`, lines 77-95): cloning, fetching, the hard reset and the clean are left out. The model takes `repo` as a boolean: git is importable and a repository object exists.
- The extraction tool (`convert_with_mineru`, lines 142-167): the subprocess, the temporary folder and the choice of the first generated file are left out. Its result is the parameter `extract`.
- The HTTP request, the prompt text, the timeout and the JSON decoding of `correct_with_ollama` are left out. Their net effect is the `Reply` a text receives.
- Console output, the memory probe (`psutil`) and the configuration read from the environment are left out. `GITHUB_TOKEN` is the `token` field of `Remote`, with "" standing for unset.
- Timestamps are integers, not floats. Only `<=` and `>` are applied to them.
- `shutil.copy2` metadata beyond the modification time is left out. A copy carries the source's content and modification time.
- Paths.Lower: handles ASCII capitals only. Python's `str.lower` also maps non-ASCII capitals. The only ones that lower-case into ASCII letters are the KELVIN SIGN (to `k`) and the capital I with dot above (to `i` plus a combining dot). Neither letter can complete a supported extension, so membership in the extension sets is unaffected.
- Case-insensitive matching of the `*.md` glob on case-insensitive file systems is left out. A name matches when it ends in `.md` exactly.
- Directories and nested paths in the output folder are left out. The folder is a flat map from names to files.
- Partial writes are left out. A failing write or copy leaves the output as it was.
- Exceptions raised while staging or committing are left out, and so is the commit message text.
- The `try/except` around `clone_or_update_repo` in `main` (lines 317-321) is left out. A failure there means `repo` is false.
- Pipeline.RunIsIdempotent: holds without a repository only. With a repository, freshness is decided by commit times, and the model does not let a commit advance the history of the committed files.
- Pipeline.RunIsIdempotent: also needs the clock not to be behind any source's modification time. A converted output is stamped with the current time when it is written (line 284). When that time is earlier than the source's, the source still looks newer and is selected and converted again on every run. For example, `a.pdf` with modification time 10 converted at time 5. The program does this too, so the model promises nothing for that case.
- Pipeline.FreshAfterRun, Pipeline.FreshAfterLoop, Pipeline.ProcessedAreFresh, Pipeline.AllKeepFresh, Conversion.WrittenOutputIsFresh: hold without a repository and with a clock not behind the sources only, for the same two reasons. In git mode a source that is fresh by modification time can still be selected by commit time.
- Correction.CorrectChunked: splits a text longer than 2500 characters with the split as intended (`Chunking.Windows`, computed by `Chunking.SplitIntoWindows`). The loop as written never ends on such a text (first row under Findings). The program would grow the chunk list until memory runs out, and whether that ends in the `except` of `process_single_file` or in the process being killed depends on the host.
- Conversion.ProcessSingleFile: converts extractions longer than 2500 characters through `Correction.CorrectChunked`, so it uses the corrected split. The program as written never finishes such a file.
- Pipeline.Run: inherits the corrected split from `Conversion.ProcessSingleFile`. A run that meets an extraction longer than 2500 characters does not finish in the program as written.
- A deletion that raises during cleanup (line 307) ends `main` with the exception, since there is no `try` around it. The model always deletes every orphan.
- Chunking.AsWrittenSplitNeverExits: bounds the loop as written by a fuel parameter. The unbounded growth of the chunk list, and so the eventual memory exhaustion, is shown for every finite number of iterations rather than as non-termination.
- `test_requirements.py` searches the text of `src/script.py` for function names and markers, most of which the script does not define. It states nothing about the behaviour of the script and is not part of this model.

The third window of a 6000-character text has 1400 characters: 6000 minus the 4600 characters at which it starts.

## Findings

| source | as written | input that shows it | evidently intended | confidence | as-written member | corrected member |
|---|---|---|---|---|---|---|
| src/script.py:222-228 | After the last window, `start = end - 200` is below the length again, so neither the loop condition nor the `break` ever ends the loop. It keeps appending the final 200 characters. | any text of 2501 characters or more | stop after the window that reaches the end of the text | high, not executed | Chunking.AsWrittenSplitNeverExits | Chunking.SplitIntoWindows |
| src/script.py:258-263 | In git mode, a source whose commit time is 0 and whose output is missing is skipped, because `0 <= 0`. `main` selected it for exactly that missing output (line 344), so such a source is never converted. | a source with no commit history (uncommitted, or history lookup failing) and no output, with a repository present | process every file whose output is missing, as the selection filter does | high, not executed | Staleness.SelectedYetSkipped | Staleness.SkipIntendedIsNotSelected |

The per-file processing and the pipeline keep the up-to-date test as written, so `Conversion.SelectedButNeverProcessed` shows the second discrepancy at the level of `process_single_file`. The corrected test is `Staleness.SkipIntended`. Without a repository it coincides with the test as written, as `Staleness.FilesystemSkipIsNotSelected` and `Staleness.SkipIntendedIsNotSelected` show together, so the freshness and idempotence results hold under either test.

=== FILE: chunking.dfy ===
/** Splitting an over-long text into overlapping windows and stitching the
    corrected windows back together (the chunked correction engine of
    src/script.py, without the correction calls themselves). */
module Chunking {
  import opened Text
  import opened Seqs

  /** Largest text sent to the corrector in one request. */
  const MAX_CHUNK_SIZE: nat := 2500
  /** Characters shared by consecutive windows. */
  const OVERLAP: nat := 200
  /** Distance between the starts of consecutive windows. */
  const STEP: nat := MAX_CHUNK_SIZE - OVERLAP

  /** Where window `i` of a text of length `len` ends. */
  function WindowEnd(len: nat, i: nat): nat {
    Min(i * STEP + MAX_CHUNK_SIZE, len)
  }

  /** Window i of `s`: from i * STEP up to MAX_CHUNK_SIZE characters. */
  function Window(s: string, i: nat): string
    requires i * STEP < |s|
  {
    s[i * STEP .. WindowEnd(|s|, i)]
  }

  /** How many windows a text of length `len` is split into. */
  function WindowCount(len: nat): nat
    decreases len
  {
    if len == 0 then 0
    else if len <= MAX_CHUNK_SIZE then 1
    else 1 + WindowCount(len - STEP)
  }

  /** The last window is the first one that reaches the end of the text. */
  lemma {:induction false} WindowCountBounds(len: nat, i: nat)
    ensures i < WindowCount(len) <==> (i == 0 && len > 0) || (i > 0 && WindowEnd(len, i - 1) < len)
    decreases len
  {
    if len > MAX_CHUNK_SIZE && i > 0 {
      WindowCountBounds(len - STEP, i - 1);
      if i > 1 {
        assert WindowEnd(len, i - 1) == STEP + WindowEnd(len - STEP, i - 2);
      }
    }
  }

  /** The windows of the split as intended, defined by recursion on the
      text: the first window, then the windows of the text after one STEP.
      `SplitIntoWindows` computes them; the loop as written appends them and
      then never stops (`AsWrittenSplitIsWindowsThenTail`). */
  function Windows(s: string): (ws: seq<string>)
    ensures |ws| == WindowCount(|s|)
    decreases |s|
  {
    if |s| == 0 then []
    else if |s| <= MAX_CHUNK_SIZE then [s]
    else [s[..MAX_CHUNK_SIZE]] + Windows(s[STEP..])
  }

  /** The closed form of the split: window i starts at i * STEP and ends
      MAX_CHUNK_SIZE characters later or at the end of the text. */
  lemma {:induction false} WindowAt(s: string, i: nat)
    requires i < |Windows(s)|
    ensures i * STEP < |s|
    ensures Windows(s)[i] == Window(s, i)
    decreases |s|
  {
    if i > 0 {
      assert |s| > MAX_CHUNK_SIZE;
      var t := s[STEP..];
      assert Windows(s) == [s[..MAX_CHUNK_SIZE]] + Windows(t);
      WindowAt(t, i - 1);
      var x, y := (i - 1) * STEP, WindowEnd(|t|, i - 1);
      assert i * STEP == STEP + x && WindowEnd(|s|, i) == STEP + y;
      assert t[x..y] == s[STEP + x..STEP + y];
      assert Windows(s)[i] == Windows(t)[i - 1];
    }
  }

  /** The shape of the split: no window for the empty text, a single window
      for a text of at most MAX_CHUNK_SIZE characters, every window but the
      last exactly MAX_CHUNK_SIZE long, and the last one ending at the end of
      the text. */
  lemma WindowsShape(s: string, i: nat)
    requires i < |Windows(s)|
    ensures |s| <= MAX_CHUNK_SIZE ==> Windows(s) == [s]
    ensures i < |Windows(s)| - 1 ==> |Windows(s)[i]| == MAX_CHUNK_SIZE
    ensures i == |Windows(s)| - 1 ==> WindowEnd(|s|, i) == |s|
  {
    WindowAt(s, i);
    WindowCountBounds(|s|, i + 1);
  }

  /** Consecutive windows share exactly OVERLAP characters: the tail of one
      window is the head of the next. */
  lemma ConsecutiveWindowsOverlap(s: string, i: nat)
    requires i + 1 < |Windows(s)|
    ensures |Windows(s)[i]| == MAX_CHUNK_SIZE
    ensures |Windows(s)[i + 1]| > OVERLAP
    ensures Windows(s)[i][STEP..] == Windows(s)[i + 1][..OVERLAP]
  {
    WindowAt(s, i);
    WindowAt(s, i + 1);
    WindowCountBounds(|s|, i + 1);
    var a := i * STEP;
    assert Windows(s)[i] == s[a .. a + MAX_CHUNK_SIZE];
    assert Windows(s)[i][STEP..] == s[a + STEP .. a + MAX_CHUNK_SIZE];
    assert Windows(s)[i + 1][..OVERLAP] == s[a + STEP .. a + STEP + OVERLAP];
  }

  /** Every position of the text lies in some window: the windows cover
      [0, |s|) without a gap. */
  lemma {:induction false} WindowsCover(s: string, p: nat)
    requires p < |s|
    ensures exists i :: 0 <= i < |Windows(s)| && i * STEP <= p < WindowEnd(|s|, i)
  {
    WindowCountBounds(|s|, 0);
    CoverFrom(s, 0, p);
  }

  lemma {:induction false} CoverFrom(s: string, i: nat, p: nat)
    requires p < |s| && i < |Windows(s)| && i * STEP <= p
    ensures exists j :: i <= j < |Windows(s)| && j * STEP <= p < WindowEnd(|s|, j)
    decreases |Windows(s)| - i
  {
    if p >= WindowEnd(|s|, i) {
      WindowCountBounds(|s|, i + 1);
      CoverFrom(s, i + 1, p);
    }
  }

  /** The evident intent of the split loop: the same loop, leaving as soon
      as a window reaches the end of the text. */
  method SplitIntoWindows(s: string) returns (chunks: seq<string>)
    ensures chunks == Windows(s)
  {
    chunks := [];
    var start := 0;
    while start < |s|
      invariant start <= |s|
      invariant chunks + Windows(s[start..]) == Windows(s)
      decreases |s| - start
    {
      var end := Min(start + MAX_CHUNK_SIZE, |s|);
      var rest := s[start..];
      if end == |s| {
        assert rest == s[start..end];
        chunks := chunks + [s[start..end]];
        return;
      }
      assert rest[STEP..] == s[start + STEP..];
      assert rest[..MAX_CHUNK_SIZE] == s[start..end];
      assert Windows(rest) == [s[start..end]] + Windows(s[end - OVERLAP..]);
      chunks := chunks + [s[start..end]];
      start := end - OVERLAP;
    }
    assert s[start..] == [];
  }

  /** What `iterations` passes of the as-written split loop append, and
      whether the loop left, by its guard or by its `break`. */
  datatype SplitRun = SplitRun(chunks: seq<string>, exited: bool)

  /** The split loop exactly as written, run for at most `fuel` passes from
      `start`. The loop is only entered for texts longer than
      MAX_CHUNK_SIZE. */
  function AsWrittenSplit(s: string, start: nat, fuel: nat): SplitRun
    requires MAX_CHUNK_SIZE < |s|
    decreases fuel
  {
    if !(start < |s|) then SplitRun([], true)
    else if fuel == 0 then SplitRun([], false)
    else
      var end := Min(start + MAX_CHUNK_SIZE, |s|);
      var chunk := s[start..end];
      var next := end - OVERLAP;
      if next >= |s| then SplitRun([chunk], true)
      else
        var rest := AsWrittenSplit(s, next, fuel - 1);
        SplitRun([chunk] + rest.chunks, rest.exited)
  }

  /** The as-written loop never leaves: after any number of passes it is
      still running and has appended one window per pass. */
  lemma {:induction false} AsWrittenSplitNeverExits(s: string, start: nat, fuel: nat)
    requires MAX_CHUNK_SIZE < |s| && start < |s|
    ensures !AsWrittenSplit(s, start, fuel).exited
    ensures |AsWrittenSplit(s, start, fuel).chunks| == fuel
    decreases fuel
  {
    if fuel > 0 {
      var end := Min(start + MAX_CHUNK_SIZE, |s|);
      AsWrittenSplitNeverExits(s, end - OVERLAP, fuel - 1);
    }
  }

  /** The as-written loop from `start` first appends exactly the windows of
      the rest of the text, and then goes on from the last OVERLAP
      characters. */
  lemma {:induction false} AsWrittenSplitFrom(s: string, start: nat, fuel: nat)
    requires MAX_CHUNK_SIZE < |s| && start < |s| && |Windows(s[start..])| <= fuel
    ensures AsWrittenSplit(s, start, fuel).chunks ==
      Windows(s[start..]) + AsWrittenSplit(s, |s| - OVERLAP, fuel - |Windows(s[start..])|).chunks
    decreases |s| - start
  {
    var end := Min(start + MAX_CHUNK_SIZE, |s|);
    var after := AsWrittenSplit(s, end - OVERLAP, fuel - 1).chunks;
    WindowsFrom(s, start);
    assert AsWrittenSplit(s, start, fuel).chunks == [s[start..end]] + after;
    if end < |s| {
      var next := start + STEP;
      AsWrittenSplitFrom(s, next, fuel - 1);
      AppendAssoc([s[start..end]], Windows(s[next..]),
                  AsWrittenSplit(s, |s| - OVERLAP, fuel - |Windows(s[start..])|).chunks);
    }
  }

  /** The first window of the text from `start`, and where the next one
      starts. */
  lemma WindowsFrom(s: string, start: nat)
    requires start < |s|
    ensures var end := Min(start + MAX_CHUNK_SIZE, |s|);
      Windows(s[start..]) == [s[start..end]] + (if end < |s| then Windows(s[start + STEP..]) else [])
  {
    var t := s[start..];
    if |t| > MAX_CHUNK_SIZE {
      assert t[STEP..] == s[start + STEP..];
      assert t[..MAX_CHUNK_SIZE] == s[start..start + MAX_CHUNK_SIZE];
    } else {
      assert s[start..|s|] == t;
      assert Windows(t) == [t] + [];
    }
  }

  /** The loop as written appends the windows of the corrected split and
      then, on every further pass, the last OVERLAP characters again. */
  lemma AsWrittenSplitIsWindowsThenTail(s: string, k: nat)
    requires MAX_CHUNK_SIZE < |s|
    ensures AsWrittenSplit(s, 0, |Windows(s)| + k).chunks ==
      Windows(s) + seq(k, _ => s[|s| - OVERLAP..])
  {
    assert s[0..] == s;
    AsWrittenSplitFrom(s, 0, |Windows(s)| + k);
    var tail := AsWrittenSplit(s, |s| - OVERLAP, k).chunks;
    AsWrittenSplitNeverExits(s, |s| - OVERLAP, k);
    AsWrittenSplitRepeatsTail(s, k);
    assert tail == seq(k, _ => s[|s| - OVERLAP..]);
  }

  /** Once the loop has reached the last OVERLAP characters it appends that
      same tail window on every further pass. */
  lemma {:induction false} AsWrittenSplitRepeatsTail(s: string, fuel: nat)
    requires MAX_CHUNK_SIZE < |s|
    ensures var chunks := AsWrittenSplit(s, |s| - OVERLAP, fuel).chunks;
      forall k :: 0 <= k < |chunks| ==> chunks[k] == s[|s| - OVERLAP..]
    decreases fuel
  {
    if fuel > 0 {
      var start := |s| - OVERLAP;
      assert Min(start + MAX_CHUNK_SIZE, |s|) == |s|;
      AsWrittenSplitRepeatsTail(s, fuel - 1);
      assert s[start..Min(start + MAX_CHUNK_SIZE, |s|)] == s[start..];
      assert AsWrittenSplit(s, start, fuel).chunks
        == [s[start..]] + AsWrittenSplit(s, start, fuel - 1).chunks;
    }
  }

  /** `p[-OVERLAP:]`: the last OVERLAP characters, or all of a shorter
      string. */
  function Tail(p: string): string {
    if |p| <= OVERLAP then p else p[|p| - OVERLAP..]
  }

  /** `c[OVERLAP:]`: all but the first OVERLAP characters. */
  function Drop(c: string): string {
    if |c| <= OVERLAP then "" else c[OVERLAP..]
  }

  /** What is appended for a corrected window `curr` after the part `prev`. */
  function Trim(curr: string, prev: string): string {
    if StartsWith(curr, Tail(prev)) then Drop(curr) else curr
  }

  /** What is appended for a window is the window itself or a suffix of it. */
  lemma TrimIsSuffix(curr: string, prev: string)
    ensures EndsWith(curr, Trim(curr, prev))
    ensures Trim(curr, prev) == curr || |curr| - |Trim(curr, prev)| == Min(|curr|, OVERLAP)
  {
  }

  /** Part i of `ps` is what the stitching loop appends for window i of
      `cs`: the window without its first OVERLAP characters when it starts
      with the tail of the part appended before it, the whole window
      otherwise. */
  predicate AppendedAfter(cs: seq<string>, ps: seq<string>, i: nat)
    requires 1 <= i < |cs| && |ps| == |cs|
  {
    if StartsWith(cs[i], Tail(ps[i - 1])) then ps[i] == Drop(cs[i]) else ps[i] == cs[i]
  }

  /** The part the stitching loop appends for window i: the first window
      verbatim, every later one trimmed against the part appended before it. */
  function Part(cs: seq<string>, i: nat): string
    requires i < |cs|
    decreases i
  {
    if i == 0 then cs[0] else Trim(cs[i], Part(cs, i - 1))
  }

  /** The list of parts the stitching loop builds: one part per window, the
      first window verbatim. */
  function Parts(cs: seq<string>): (ps: seq<string>)
    requires |cs| > 0
    ensures |ps| == |cs|
    ensures ps[0] == cs[0]
  {
    seq(|cs|, i requires 0 <= i < |cs| => Part(cs, i))
  }

  /** A window that starts with the tail of the part before it loses its
      first OVERLAP characters. */
  lemma StitchDrops(cs: seq<string>, i: nat)
    requires 1 <= i < |cs|
    requires StartsWith(cs[i], Tail(Parts(cs)[i - 1]))
    ensures Parts(cs)[i] == Drop(cs[i])
  {
    StitchStep(cs, i);
    assert AppendedAfter(cs, Parts(cs), i);
  }

  /** The per-window reading of the stitching loop: every window after the
      first loses exactly its first OVERLAP characters when it starts with
      the tail of the part appended before it, and nothing otherwise; what is
      appended is always a suffix of the window. */
  lemma StitchStep(cs: seq<string>, i: nat)
    requires 1 <= i < |cs|
    ensures AppendedAfter(cs, Parts(cs), i)
    ensures EndsWith(cs[i], Parts(cs)[i])
  {
    var ps := Parts(cs);
    PartIsTrim(cs, i);
    TrimIsSuffix(cs[i], ps[i - 1]);
  }

  /** Part i is window i trimmed against part i - 1. */
  lemma PartIsTrim(cs: seq<string>, i: nat)
    requires 1 <= i < |cs|
    ensures Parts(cs)[i] == Trim(cs[i], Parts(cs)[i - 1])
  {
    assert Parts(cs)[i] == Part(cs, i);
  }

  /** `"".join(parts)`. */
  function Join(parts: seq<string>): string {
    if |parts| == 0 then "" else Join(parts[..|parts| - 1]) + parts[|parts| - 1]
  }

  /** The stitched text of a non-empty list of corrected windows. */
  function Stitch(cs: seq<string>): string
    requires |cs| > 0
  {
    Join(Parts(cs))
  }

  /** Where the part stitched from window i begins in the original text when
      every window is left unchanged. */
  function PartStart(i: nat): nat {
    if i == 0 then 0 else i * STEP + OVERLAP
  }

  /** The tail of a slice at least OVERLAP long is the slice's last OVERLAP
      characters. */
  lemma TailOfSlice(s: string, a: nat, b: nat)
    requires a + OVERLAP <= b <= |s|
    ensures Tail(s[a..b]) == s[b - OVERLAP..b]
  {
  }

  /** Joining one more part appends it. */
  lemma JoinSnoc(ps: seq<string>, k: nat)
    requires k < |ps|
    ensures Join(ps[..k + 1]) == Join(ps[..k]) + ps[k]
  {
    assert ps[..k + 1][..k] == ps[..k];
  }

  /** One stitching step over unchanged windows: when the part before window
      i is the text up to the end of window i - 1, the part for window i
      continues it up to the end of window i. */
  lemma PartOfWindowStep(s: string, ws: seq<string>, i: nat)
    requires 0 < i < |ws| && i < WindowCount(|s|) && i * STEP < |s|
    requires ws[i] == Window(s, i)
    requires Parts(ws)[i - 1] == s[PartStart(i - 1) .. WindowEnd(|s|, i - 1)]
    ensures PartStart(i) <= WindowEnd(|s|, i)
    ensures Parts(ws)[i] == s[PartStart(i) .. WindowEnd(|s|, i)]
  {
    var a, start, end := PartStart(i - 1), i * STEP, WindowEnd(|s|, i);
    NextWindowBounds(|s|, i);
    assert Parts(ws)[i - 1] == s[a..start + OVERLAP];
    assert ws[i] == s[start..end];
    OverlapMatches(s, a, start, end);
    StitchDrops(ws, i);
  }

  /** Where a window that is not the first lies relative to the one before
      it: it starts OVERLAP characters before that one ends, and extends
      more than OVERLAP characters. */
  lemma NextWindowBounds(len: nat, i: nat)
    requires 0 < i < WindowCount(len)
    ensures WindowEnd(len, i - 1) == i * STEP + OVERLAP < len
    ensures PartStart(i - 1) + OVERLAP <= i * STEP + OVERLAP < WindowEnd(len, i)
    ensures PartStart(i) == WindowEnd(len, i - 1)
  {
    WindowCountBounds(len, i);
  }

  /** When a part ends where the next window's first OVERLAP characters end,
      that window starts with the part's tail and loses exactly those
      characters. */
  lemma OverlapMatches(s: string, a: nat, start: nat, end: nat)
    requires a + OVERLAP <= start + OVERLAP < end <= |s|
    ensures StartsWith(s[start..end], Tail(s[a..start + OVERLAP]))
    ensures Drop(s[start..end]) == s[start + OVERLAP..end]
  {
    TailOfSlice(s, a, start + OVERLAP);
    var w := s[start..end];
    assert |w| == end - start > OVERLAP;
    forall k | 0 <= k < OVERLAP
      ensures w[..OVERLAP][k] == s[start..start + OVERLAP][k]
    {
      assert w[k] == s[start + k];
    }
    assert w[..OVERLAP] == s[start..start + OVERLAP];
    assert w[OVERLAP..] == s[start + OVERLAP..end];
  }

  /** With unchanged windows, part i is exactly the text between the end of
      window i - 1 and the end of window i. */
  lemma {:induction false} PartsOfWindows(s: string, i: nat)
    requires i < |Windows(s)|
    ensures PartStart(i) <= WindowEnd(|s|, i) <= |s|
    ensures Parts(Windows(s))[i] == s[PartStart(i) .. WindowEnd(|s|, i)]
  {
    var ws := Windows(s);
    WindowAt(s, i);
    if i > 0 {
      assert |ws| == WindowCount(|s|);
      PartsOfWindows(s, i - 1);
      PartOfWindowStep(s, ws, i);
    } else {
      FirstPartOfWindows(s, ws);
    }
  }

  /** The first part of unchanged windows is the first window. */
  lemma FirstPartOfWindows(s: string, ws: seq<string>)
    requires 0 < |ws| && 0 < |s| && ws[0] == Window(s, 0)
    ensures Parts(ws)[0] == s[PartStart(0) .. WindowEnd(|s|, 0)]
  {
    assert Window(s, 0) == s[0..WindowEnd(|s|, 0)];
  }

  /** Joining the first k + 1 parts of unchanged windows rebuilds the text up
      to the end of window k. */
  lemma {:induction false} JoinPartsOfWindows(s: string, k: nat)
    requires k < |Windows(s)|
    ensures Join(Parts(Windows(s))[..k + 1]) == s[..WindowEnd(|s|, k)]
  {
    var ps := Parts(Windows(s));
    PartsOfWindows(s, k);
    JoinSnoc(ps, k);
    if k > 0 {
      JoinPartsOfWindows(s, k - 1);
      WindowCountBounds(|s|, k);
      SliceConcat(s, WindowEnd(|s|, k - 1), WindowEnd(|s|, k));
    }
  }

  /** Splitting then stitching unchanged windows gives back the text: the
      overlap trimming removes exactly the repeated characters. This relies
      on 2 * OVERLAP <= MAX_CHUNK_SIZE, so that every part before the last
      is at least OVERLAP long. */
  lemma StitchWindowsRoundTrip(s: string)
    requires |s| > 0
    ensures Stitch(Windows(s)) == s
  {
    var ws := Windows(s);
    WindowCountBounds(|s|, 0);
    var k := |ws| - 1;
    var ps := Parts(ws);
    WindowsShape(s, k);
    JoinPartsOfWindows(s, k);
    assert ps[..k + 1] == ps;
    assert s[..WindowEnd(|s|, k)] == s;
  }

  /** Stitching may drop characters that did not match: when the part
      appended before a window is shorter than OVERLAP and the window starts
      with it, OVERLAP characters are still removed. Here one character
      matched and the 199 characters after it are lost. */
  lemma StitchDropsMoreThanMatched()
    ensures var cs := ["x", "x" + seq(OVERLAP, _ => 'y')];
      |Tail(cs[0])| == 1 && Stitch(cs) == "xy"
  {
    var y := seq(OVERLAP, _ => 'y');
    var cs := ["x", "x" + y];
    assert Tail(cs[0]) == "x";
    assert cs[..1] == ["x"];
    assert StartsWith(cs[1], "x");
    assert Drop(cs[1]) == "y";
    assert Parts(cs) == ["x", "y"];
    assert Join(["x", "y"]) == Join(["x"]) + "y";
    assert Join(["x"]) == Join([]) + "x";
  }

  /** A joined text is at least as long as any of its parts. */
  lemma {:induction false} JoinKeepsParts(ps: seq<string>, k: nat)
    requires k < |ps|
    ensures |Join(ps)| >= |ps[k]|
    decreases |ps|
  {
    if k < |ps| - 1 {
      JoinKeepsParts(ps[..|ps| - 1], k);
    }
  }
}

=== FILE: conversion.dfy ===
/** Per-file routing (`process_single_file`): the up-to-date test, then
    either a verbatim copy for Markdown and plain-text sources or extraction
    followed by chunked correction for everything else. */
module Conversion {
  import opened Wrappers
  import opened Paths
  import opened Staleness
  import opened Correction

  /** A source document: its name, its bytes and its change markers. */
  datatype SourceFile = SourceFile(name: string, content: string, stamp: FileStamp)

  /** An output Markdown file. */
  datatype OutputFile = OutputFile(content: string, stamp: FileStamp)

  /** The output folder, by file name. */
  type Folder = map<string, OutputFile>

  /** The collaborators processing depends on. */
  datatype Env = Env(
    /** Git is importable and the repository was acquired. */
    repo: bool,
    /** The extraction tool's Markdown for a source, None when it fails. */
    extract: SourceFile -> Option<string>,
    /** The correction service's reply to a text. */
    ask: string -> Reply,
    /** Output names whose copy or write raises. */
    writeFails: set<string>,
    /** The modification time a freshly written file gets. */
    now: int)

  /** What processing did with one source. */
  datatype Outcome = Skipped | Copied | Converted | Failed

  /** `process_single_file` returned True: the output was created or
      rewritten. */
  predicate Changed(o: Outcome) {
    o.Copied? || o.Converted?
  }

  datatype Processed = Processed(outcome: Outcome, folder: Folder)

  /** The markers of an output file, None when it does not exist. */
  function Existing(folder: Folder, name: string): Option<FileStamp> {
    if name in folder then Some(folder[name].stamp) else None
  }

  /** A rewritten output keeps its repository history: a write is not a
      commit. */
  function Rewritten(folder: Folder, name: string, content: string, mtime: int): OutputFile {
    var history := if name in folder then folder[name].stamp.history else NoCommit;
    OutputFile(content, FileStamp(mtime, history))
  }

  /** `process_single_file` for source `src` against the output folder, with
      its up-to-date test as written (`Skip`). The outcome is Skipped exactly
      when that test passes; a copied output holds
      the source's bytes and modification time; a converted output holds the
      chunked correction of a non-empty extraction; every failure leaves the
      folder as it was, and only the source's own output file ever
      changes. */
  function ProcessSingleFile(env: Env, src: SourceFile, folder: Folder): (p: Processed)
    ensures var out := OutputName(src.name);
      && (p.outcome.Skipped? <==> Skip(env.repo, src.stamp, Existing(folder, out)))
      && (!Changed(p.outcome) ==> p.folder == folder)
      && (forall n :: n in p.folder <==> n in folder || (Changed(p.outcome) && n == out))
      && (forall n :: n in folder && n != out ==> p.folder[n] == folder[n])
    ensures var out := OutputName(src.name);
      p.outcome.Copied? ==>
        IsPlainText(src.name) && p.folder[out].content == src.content &&
        p.folder[out].stamp.mtime == src.stamp.mtime
    ensures var out := OutputName(src.name);
      p.outcome.Converted? ==>
        !IsPlainText(src.name) && env.extract(src).Some? && env.extract(src).value != "" &&
        CorrectChunked(env.extract(src).value, env.ask) == Some(p.folder[out].content) &&
        p.folder[out].stamp.mtime == env.now
    ensures p.outcome.Failed? <==>
      !Skip(env.repo, src.stamp, Existing(folder, OutputName(src.name))) &&
      (OutputName(src.name) in env.writeFails ||
       (!IsPlainText(src.name) &&
        (env.extract(src).GetOr("") == "" || CorrectChunked(env.extract(src).value, env.ask).None?)))
  {
    var out := OutputName(src.name);
    if Skip(env.repo, src.stamp, Existing(folder, out)) then Processed(Skipped, folder)
    else if IsPlainText(src.name) then
      if out in env.writeFails then Processed(Failed, folder)
      else Processed(Copied, folder[out := Rewritten(folder, out, src.content, src.stamp.mtime)])
    else
      match env.extract(src)
      case None => Processed(Failed, folder)
      case Some(raw) =>
        if raw == "" then Processed(Failed, folder)
        else
          match CorrectChunked(raw, env.ask)
          case None => Processed(Failed, folder)
          case Some(text) =>
            if out in env.writeFails then Processed(Failed, folder)
            else Processed(Converted, folder[out := Rewritten(folder, out, text, env.now)])
  }

  /** Passthrough fidelity: a plain-text source that is processed and can be
      written is copied byte for byte. */
  lemma PlainTextIsCopied(env: Env, src: SourceFile, folder: Folder)
    requires IsPlainText(src.name) && OutputName(src.name) !in env.writeFails
    requires !Skip(env.repo, src.stamp, Existing(folder, OutputName(src.name)))
    ensures ProcessSingleFile(env, src, folder).outcome == Copied
    ensures ProcessSingleFile(env, src, folder).folder[OutputName(src.name)].content == src.content
  {
  }

  /** Fallback guarantee: when the correction service never answers usefully,
      a converted output holds exactly the extracted text. */
  lemma ConvertedUnderOutageIsExtraction(env: Env, src: SourceFile, folder: Folder)
    requires forall t :: FallsBack(env.ask(t))
    requires ProcessSingleFile(env, src, folder).outcome.Converted?
    ensures Some(ProcessSingleFile(env, src, folder).folder[OutputName(src.name)].content)
      == env.extract(src)
  {
    var p := ProcessSingleFile(env, src, folder);
    FallbackKeepsText(env.extract(src).value, env.ask);
  }

  /** Without a repository, an output that was just written for a source is
      up to date for it, provided the clock does not run behind the source's
      modification time. */
  lemma WrittenOutputIsFresh(env: Env, src: SourceFile, folder: Folder)
    requires !env.repo && env.now >= src.stamp.mtime
    requires Changed(ProcessSingleFile(env, src, folder).outcome)
    ensures !Selected(false, src.stamp, Existing(ProcessSingleFile(env, src, folder).folder, OutputName(src.name)))
  {
  }

  /** With a repository, a source without commit history whose output is
      missing is selected by `main` and then skipped here, so it is never
      converted, however often the run is repeated. */
  lemma SelectedButNeverProcessed(env: Env, src: SourceFile, folder: Folder)
    requires env.repo && src.stamp.history.NoCommit? && OutputName(src.name) !in folder
    ensures Selected(env.repo, src.stamp, Existing(folder, OutputName(src.name)))
    ensures ProcessSingleFile(env, src, folder) == Processed(Skipped, folder)
  {
  }
}

=== FILE: correction.dfy ===
/** The correction service seen from the converter: one request per text
    (`correct_with_ollama`) and the chunked engine on top of it
    (`correct_with_ollama_chunked`). The HTTP exchange itself is replaced by
    its reply. */
module Correction {
  import opened Wrappers
  import opened Text
  import opened Chunking

  /** What one request to the service comes back with. */
  datatype Reply =
      /** A `requests.exceptions.RequestException`: connection failure,
          timeout, or a body that is not JSON. */
    | RequestError
      /** A JSON object; `response` is its `response` field, "" when absent. */
    | Response(status: int, response: string)
      /** JSON that is not an object holding a string `response` field;
          reading that field raises an error that is not a request error. */
    | BadPayload(status: int)

  /** The reply carries a usable correction. */
  predicate Accepted(reply: Reply) {
    reply.Response? && reply.status == 200 && Strip(reply.response) != ""
  }

  /** The reply makes the correction raise instead of falling back. */
  predicate Raises(reply: Reply) {
    reply.BadPayload? && reply.status == 200
  }

  /** The reply leads to the fallback: the text is kept unchanged. */
  predicate FallsBack(reply: Reply) {
    !Accepted(reply) && !Raises(reply)
  }

  /** One correction request for `text` answered by `reply`; None stands for
      the error that escapes the call. The result is the stripped reply when
      the service answered 200 with non-blank text, and otherwise the input
      unchanged, so it is never empty unless the input was empty. */
  function CorrectOnce(text: string, reply: Reply): (r: Option<string>)
    ensures r.None? <==> Raises(reply)
    ensures Accepted(reply) ==> r == Some(Strip(reply.response))
    ensures FallsBack(reply) ==> r == Some(text)
    ensures r.Some? && r.value == "" ==> text == ""
    ensures r.Some? && r.value != text ==> Trimmed(r.value)
  {
    match reply
    case RequestError => Some(text)
    case Response(status, response) =>
      if status == 200 && Strip(response) != "" then Some(Strip(response)) else Some(text)
    case BadPayload(status) =>
      if status == 200 then None else Some(text)
  }

  /** Corrects every window in order, each with its own request; the first
      window whose request raises aborts the whole list. Each window's
      result depends on that window's reply alone. */
  function CorrectAll(ws: seq<string>, ask: string -> Reply): (r: Option<seq<string>>)
    ensures r.Some? <==> forall i :: 0 <= i < |ws| ==> !Raises(ask(ws[i]))
    ensures r.Some? ==> |r.value| == |ws|
    ensures r.Some? ==>
      forall i :: 0 <= i < |ws| ==> Some(r.value[i]) == CorrectOnce(ws[i], ask(ws[i]))
    decreases |ws|
  {
    if |ws| == 0 then Some([])
    else
      match CorrectOnce(ws[0], ask(ws[0]))
      case None => None
      case Some(first) =>
        match CorrectAll(ws[1..], ask)
        case None =>
          RaisesInTail(ws, ask);
          None
        case Some(rest) =>
          CorrectedCons(ws, ask, first, rest);
          Some([first] + rest)
  }

  /** A window of the tail whose request raises is a window of the list. */
  lemma RaisesInTail(ws: seq<string>, ask: string -> Reply)
    requires 0 < |ws|
    requires !forall i :: 0 <= i < |ws| - 1 ==> !Raises(ask(ws[1..][i]))
    ensures !forall i :: 0 <= i < |ws| ==> !Raises(ask(ws[i]))
  {
    var j :| 0 <= j < |ws| - 1 && Raises(ask(ws[1..][j]));
    assert ws[1..][j] == ws[j + 1];
  }

  /** The first window's correction followed by the tail's corrections is
      the list of every window's correction. */
  lemma CorrectedCons(ws: seq<string>, ask: string -> Reply, first: string, rest: seq<string>)
    requires 0 < |ws| && |rest| == |ws| - 1
    requires Some(first) == CorrectOnce(ws[0], ask(ws[0]))
    requires forall i :: 0 <= i < |ws| - 1 ==> Some(rest[i]) == CorrectOnce(ws[1..][i], ask(ws[1..][i]))
    ensures forall i :: 0 <= i < |ws| ==> !Raises(ask(ws[i]))
    ensures forall i :: 0 <= i < |ws| ==>
      Some(([first] + rest)[i]) == CorrectOnce(ws[i], ask(ws[i]))
  {
    var r := [first] + rest;
    forall i | 1 <= i < |ws|
      ensures ws[i] == ws[1..][i - 1] && r[i] == rest[i - 1]
    {
    }
  }

  /** `correct_with_ollama_chunked`: one request for a text of at most
      MAX_CHUNK_SIZE characters, otherwise one request per window of the
      split as intended (`Windows`) and the corrected windows stitched back
      together. */
  function CorrectChunked(raw: string, ask: string -> Reply): (r: Option<string>)
    ensures |raw| <= MAX_CHUNK_SIZE ==> r == CorrectOnce(raw, ask(raw))
    ensures r.Some? && raw != "" ==> r.value != ""
  {
    if |raw| <= MAX_CHUNK_SIZE then CorrectOnce(raw, ask(raw))
    else
      var ws := Windows(raw);
      var corrected := CorrectAll(ws, ask);
      if corrected.None? then None
      else
        var cs := corrected.value;
        WindowAt(raw, 0);
        assert Some(cs[0]) == CorrectOnce(ws[0], ask(ws[0]));
        JoinKeepsParts(Parts(cs), 0);
        Some(Stitch(cs))
  }

  /** A long text is corrected only if no window's request raises; a single
      raising request aborts the whole correction. */
  lemma ChunkedAbortsOnRaise(raw: string, ask: string -> Reply)
    requires |raw| > MAX_CHUNK_SIZE
    ensures CorrectChunked(raw, ask).Some? <==>
      forall i :: 0 <= i < |Windows(raw)| ==> !Raises(ask(Windows(raw)[i]))
  {
  }

  /** Corrected-or-original, never absent: when every request falls back,
      the chunked engine gives back the extracted text unchanged. */
  lemma FallbackKeepsText(raw: string, ask: string -> Reply)
    requires forall t :: FallsBack(ask(t))
    ensures CorrectChunked(raw, ask) == Some(raw)
  {
    if |raw| > MAX_CHUNK_SIZE {
      var ws := Windows(raw);
      var cs := CorrectAll(ws, ask).value;
      assert cs == ws;
      StitchWindowsRoundTrip(raw);
    }
  }

  /** One failing window does not poison the others: when the request for
      window i falls back, its corrected text is its raw slice, whatever
      the other windows' replies are. */
  lemma FailingWindowKeepsItsSlice(raw: string, ask: string -> Reply, i: nat)
    requires |raw| > MAX_CHUNK_SIZE && i < |Windows(raw)|
    requires CorrectAll(Windows(raw), ask).Some?
    requires FallsBack(ask(Windows(raw)[i]))
    ensures CorrectAll(Windows(raw), ask).value[i] == Windows(raw)[i]
  {
  }

  /** A 6000-character text is split into three windows of 2500, 2500 and
      1400 characters. */
  lemma SixThousandCharacters(raw: string)
    requires |raw| == 6000
    ensures |Windows(raw)| == 3
    ensures |Windows(raw)[0]| == 2500 && |Windows(raw)[1]| == 2500 && |Windows(raw)[2]| == 1400
  {
    WindowAt(raw, 0);
    WindowAt(raw, 1);
    WindowAt(raw, 2);
  }
}

=== FILE: paths.dfy ===
/** File-name arithmetic of `pathlib.PurePath` as the converter uses it:
    `suffix`, `stem`, case-insensitive extension tests, the fixed list of
    supported extensions and the output name `<stem>.md`. Names are final
    path components. */
module Paths {
  import opened Text

  /** Extensions the converter picks up from the source folder. */
  const SUPPORTED_EXTS: set<string> :=
    {".pdf", ".html", ".docx", ".md", ".txt", ".jpg", ".jpeg", ".png", ".epub"}

  /** Extensions that are copied through instead of extracted. */
  const TEXT_EXTS: set<string> := {".md", ".txt"}

  /** `name.rfind('.')`: the index of the last dot, or -1. */
  function LastDot(name: string): (i: int)
    ensures -1 <= i < |name|
    ensures i == -1 ==> forall k :: 0 <= k < |name| ==> name[k] != '.'
    ensures 0 <= i ==> name[i] == '.' && forall k :: i < k < |name| ==> name[k] != '.'
  {
    if |name| == 0 then -1
    else if name[|name| - 1] == '.' then |name| - 1
    else LastDot(name[..|name| - 1])
  }

  /** Whether the last dot splits the name into a stem and a suffix: it is
      neither the first nor the last character. */
  predicate HasSuffix(name: string) {
    0 < LastDot(name) < |name| - 1
  }

  /** `PurePath.suffix`: from the last dot on, or empty. */
  function Suffix(name: string): string {
    if HasSuffix(name) then name[LastDot(name)..] else ""
  }

  /** `PurePath.stem`: the name without its suffix. */
  function Stem(name: string): string {
    if HasSuffix(name) then name[..LastDot(name)] else name
  }

  /** A name is its stem followed by its suffix; a suffix, when present, is
      a dot followed by at least one character and no further dot. */
  lemma StemSuffixSplit(name: string)
    ensures Stem(name) + Suffix(name) == name
    ensures Suffix(name) != "" ==> |Suffix(name)| >= 2 && Suffix(name)[0] == '.'
    ensures forall k :: 0 < k < |Suffix(name)| ==> Suffix(name)[k] != '.'
    ensures |name| > 0 ==> |Stem(name)| > 0
  {
  }

  /** ASCII lower-casing, standing in for `str.lower()`. */
  function Lower(s: string): (r: string)
    ensures |r| == |s|
    ensures forall k :: 0 <= k < |s| ==>
      r[k] == if 'A' <= s[k] <= 'Z' then (s[k] as int + 32) as char else s[k]
  {
    if |s| == 0 then ""
    else
      var c := s[0];
      [if 'A' <= c <= 'Z' then (c as int + 32) as char else c] + Lower(s[1..])
  }

  /** Lower-casing leaves a text without upper-case letters unchanged. */
  lemma LowerKeepsLowercase(s: string)
    requires forall k :: 0 <= k < |s| ==> !('A' <= s[k] <= 'Z')
    ensures Lower(s) == s
  {
  }

  /** `path.suffix.lower() in SUPPORTED_EXTS`. */
  predicate IsSupported(name: string) {
    Lower(Suffix(name)) in SUPPORTED_EXTS
  }

  /** `path.suffix.lower() in {'.md', '.txt'}`. */
  predicate IsPlainText(name: string) {
    Lower(Suffix(name)) in TEXT_EXTS
  }

  /** The output file written for a source: `f"{stem}.md"`. */
  function OutputName(name: string): string {
    Stem(name) + ".md"
  }

  /** `glob("*.md")` on a POSIX file system: the name ends in `.md`. */
  predicate MatchesMdGlob(name: string) {
    |name| >= 3 && name[|name| - 3..] == ".md"
  }

  /** Every plain-text name is also a supported name. */
  lemma PlainTextIsSupported(name: string)
    ensures IsPlainText(name) ==> IsSupported(name)
  {
  }

  /** The output for a (non-empty) source name is found by the output
      folder's `*.md` glob, and its stem is the source's stem: this is what
      lets orphan cleanup recognise the outputs a source produces. */
  lemma OutputNameRoundTrip(name: string)
    requires |name| > 0
    ensures MatchesMdGlob(OutputName(name))
    ensures Stem(OutputName(name)) == Stem(name)
  {
    StemSuffixSplit(name);
    var stem := Stem(name);
    var out := OutputName(name);
    assert out[|stem|] == '.' && out[|stem| + 1] == 'm' && out[|stem| + 2] == 'd';
    assert out[..|out| - 1] == stem + ".m";
    assert out[..|out| - 2] == stem + ".";
    assert LastDot(out[..|out| - 2]) == |stem|;
    assert LastDot(out) == |stem|;
    assert out[..|stem|] == stem;
  }

  /** Two sources that differ only in extension share one output file. */
  lemma OutputNamesCollide()
    ensures OutputName("report.pdf") == OutputName("report.txt") == "report.md"
  {
    assert LastDot("report.pdf") == 6 by {
      assert "report.pdf"[..9] == "report.pd";
      assert "report.pdf"[..9][..8] == "report.p";
      assert "report.pdf"[..9][..8][..7] == "report.";
    }
    assert LastDot("report.txt") == 6 by {
      assert "report.txt"[..9] == "report.tx";
      assert "report.txt"[..9][..8] == "report.t";
      assert "report.txt"[..9][..8][..7] == "report.";
    }
  }
}

=== FILE: pipeline.dfy ===
/** One run of the converter (`main`): orphan cleanup, selection of the
    stale supported sources, processing them one after another against the
    output folder, and publishing what changed. */
module Pipeline {
  import opened Wrappers
  import opened Paths
  import opened Staleness
  import opened Reconcile
  import opened Conversion
  import opened Publish
  import opened Seqs

  /** The names of the source files, in order. */
  function Names(sources: seq<SourceFile>): (names: seq<string>)
    ensures |names| == |sources|
    ensures forall i :: 0 <= i < |sources| ==> names[i] == sources[i].name
  {
    seq(|sources|, i requires 0 <= i < |sources| => sources[i].name)
  }

  /** The folder after the files named in `names` are deleted. */
  function Remove(folder: Folder, names: seq<string>): Folder {
    folder - (set n | n in names)
  }

  /** The sources whose extension is supported, in order. */
  function SupportedSources(sources: seq<SourceFile>): (r: seq<SourceFile>)
    ensures |r| <= |sources|
    ensures forall s :: s in r <==> s in sources && IsSupported(s.name)
    decreases |sources|
  {
    if |sources| == 0 then []
    else
      var rest := SupportedSources(sources[1..]);
      assert forall s :: s in sources <==> s == sources[0] || s in sources[1..];
      if IsSupported(sources[0].name) then [sources[0]] + rest else rest
  }

  /** The selection filter of `main` applied to every source, in order,
      against the folder as it is before any processing. */
  function SelectStale(repo: bool, sources: seq<SourceFile>, folder: Folder): (r: seq<SourceFile>)
    ensures |r| <= |sources|
    ensures forall s :: s in r <==>
      s in sources && Selected(repo, s.stamp, Existing(folder, OutputName(s.name)))
    decreases |sources|
  {
    if |sources| == 0 then []
    else
      var rest := SelectStale(repo, sources[1..], folder);
      assert forall s :: s in sources <==> s == sources[0] || s in sources[1..];
      if Selected(repo, sources[0].stamp, Existing(folder, OutputName(sources[0].name)))
      then [sources[0]] + rest else rest
  }

  /** The result of the processing loop: one outcome per selected source,
      the output names reported as changed, and the folder afterwards. */
  datatype Batch = Batch(outcomes: seq<Outcome>, changed: seq<string>, folder: Folder)

  /** The processing loop of `main`: each source in turn against the folder
      the previous ones left, collecting the outputs that were created or
      rewritten. */
  function ProcessAll(env: Env, sources: seq<SourceFile>, folder: Folder): (b: Batch)
    ensures |b.outcomes| == |sources| && |b.changed| <= |sources|
    decreases |sources|
  {
    if |sources| == 0 then Batch([], [], folder)
    else
      var p := ProcessSingleFile(env, sources[0], folder);
      var rest := ProcessAll(env, sources[1..], p.folder);
      Batch([p.outcome] + rest.outcomes,
            (if Changed(p.outcome) then [OutputName(sources[0].name)] else []) + rest.changed,
            rest.folder)
  }

  /** The outputs of the sources whose outcome is a change, in order. */
  function ChangedOutputs(outcomes: seq<Outcome>, sources: seq<SourceFile>): seq<string>
    requires |outcomes| == |sources|
    decreases |sources|
  {
    if |sources| == 0 then []
    else
      (if Changed(outcomes[0]) then [OutputName(sources[0].name)] else [])
      + ChangedOutputs(outcomes[1..], sources[1..])
  }

  /** A name is among the changed outputs exactly when some source with a
      changing outcome has it as its output. */
  lemma {:induction false} ChangedOutputsMembers(outcomes: seq<Outcome>, sources: seq<SourceFile>, n: string)
    requires |outcomes| == |sources|
    ensures n in ChangedOutputs(outcomes, sources) <==>
      exists i :: 0 <= i < |sources| && Changed(outcomes[i]) && n == OutputName(sources[i].name)
    decreases |sources|
  {
    if |sources| > 0 {
      ChangedOutputsMembers(outcomes[1..], sources[1..], n);
      if exists i :: 0 <= i < |sources| && Changed(outcomes[i]) && n == OutputName(sources[i].name) {
        var i :| 0 <= i < |sources| && Changed(outcomes[i]) && n == OutputName(sources[i].name);
        if i > 0 {
          assert outcomes[1..][i - 1] == outcomes[i] && sources[1..][i - 1] == sources[i];
        }
      }
      if n in ChangedOutputs(outcomes[1..], sources[1..]) {
        var i :| 0 <= i < |sources| - 1 && Changed(outcomes[1..][i]) && n == OutputName(sources[1..][i].name);
        assert outcomes[i + 1] == outcomes[1..][i] && sources[i + 1] == sources[1..][i];
      }
    }
  }

  /** The changed list of the loop lists, in order, the outputs of exactly
      the sources that were copied or converted. */
  lemma {:induction false} ProcessAllChanged(env: Env, sources: seq<SourceFile>, folder: Folder)
    ensures var b := ProcessAll(env, sources, folder);
      b.changed == ChangedOutputs(b.outcomes, sources)
    decreases |sources|
  {
    if |sources| > 0 {
      var p := ProcessSingleFile(env, sources[0], folder);
      var rest := ProcessAll(env, sources[1..], p.folder);
      ProcessAllChanged(env, sources[1..], p.folder);
      var outcomes := [p.outcome] + rest.outcomes;
      assert outcomes[0] == p.outcome && outcomes[1..] == rest.outcomes;
    }
  }

  /** Outputs not reported as changed are untouched, and no file other than
      a reported one appears. */
  lemma {:induction false} ProcessAllFrame(env: Env, sources: seq<SourceFile>, folder: Folder)
    ensures var b := ProcessAll(env, sources, folder);
      (forall n :: n in b.folder <==> n in folder || n in b.changed) &&
      (forall n :: n in folder && n !in b.changed ==> b.folder[n] == folder[n])
    decreases |sources|
  {
    if |sources| > 0 {
      var p := ProcessSingleFile(env, sources[0], folder);
      var rest := ProcessAll(env, sources[1..], p.folder);
      ProcessAllFrame(env, sources[1..], p.folder);
      StepFrame(env, sources[0], folder);
      FrameCompose(folder, p.folder, rest.folder,
                   if Changed(p.outcome) then [OutputName(sources[0].name)] else [], rest.changed);
    }
  }

  /** Processing one source changes at most its own output. */
  lemma StepFrame(env: Env, src: SourceFile, folder: Folder)
    ensures var p := ProcessSingleFile(env, src, folder);
      var changed := if Changed(p.outcome) then [OutputName(src.name)] else [];
      (forall n :: n in p.folder <==> n in folder || n in changed) &&
      (forall n :: n in folder && n !in changed ==> p.folder[n] == folder[n])
  {
    var p := ProcessSingleFile(env, src, folder);
    var changed := if Changed(p.outcome) then [OutputName(src.name)] else [];
    assert forall n :: n in changed <==> Changed(p.outcome) && n == OutputName(src.name);
  }

  /** Two steps that each change only the files they report change only the
      files reported by either. */
  lemma FrameCompose(f0: Folder, f1: Folder, f2: Folder, c1: seq<string>, c2: seq<string>)
    requires forall n :: n in f1 <==> n in f0 || n in c1
    requires forall n :: n in f0 && n !in c1 ==> f1[n] == f0[n]
    requires forall n :: n in f2 <==> n in f1 || n in c2
    requires forall n :: n in f1 && n !in c2 ==> f2[n] == f1[n]
    ensures forall n :: n in f2 <==> n in f0 || n in c1 + c2
    ensures forall n :: n in f0 && n !in c1 + c2 ==> f2[n] == f0[n]
  {
  }

  /** What one run did. `publication` is None when `commit_and_push` is not
      called at all. */
  datatype RunResult = RunResult(
    deleted: seq<string>,
    selected: seq<SourceFile>,
    outcomes: seq<Outcome>,
    changed: seq<string>,
    folder: Folder,
    publication: Option<Publication>)

  /** The orphans are deleted first; a missing source folder ends the run;
      otherwise the stale supported sources are processed and, when
      anything changed or was deleted, published in one commit. With
      nothing selected, only deletions are published, and only when a
      repository is available. `listing` is the output folder's own
      listing. */
  function Run(env: Env, remote: Remote, sourceDirExists: bool, sources: seq<SourceFile>,
               folder: Folder, listing: seq<string>): (r: RunResult)
    requires forall n :: n in listing <==> n in folder
    ensures forall n :: n in r.deleted <==> sourceDirExists && n in folder && IsOrphan(Names(sources), n)
    ensures forall s :: s in r.selected <==>
      sourceDirExists && s in sources && IsSupported(s.name) &&
      Selected(env.repo, s.stamp, Existing(Remove(folder, r.deleted), OutputName(s.name)))
    ensures |r.outcomes| == |r.selected| && |r.changed| <= |r.selected|
    ensures forall n :: n in r.changed ==> n in r.folder
    ensures forall n :: n in r.deleted ==> n !in r.folder
    ensures forall n :: n in r.folder ==> n in folder || n in r.changed
    ensures forall n :: n in folder && n !in r.deleted && n !in r.changed ==>
      n in r.folder && r.folder[n] == folder[n]
    ensures (r.publication.Some? && CommitCount(r.publication.value.events) == 1) <==>
      env.repo && sourceDirExists && (r.changed != [] || r.deleted != [])
    ensures r.publication.Some? ==> r.publication.value == CommitAndPush(env.repo, r.changed, r.deleted, remote)
    ensures sourceDirExists ==>
      var kept := Remove(folder, r.deleted);
      var b := ProcessAll(env, r.selected, kept);
      r.selected == SelectStale(env.repo, SupportedSources(sources), kept) &&
      r.outcomes == b.outcomes && r.changed == b.changed && r.folder == b.folder
  {
    var deleted := CleanupOrphanedOutputs(sourceDirExists, Names(sources), listing);
    var kept := Remove(folder, deleted);
    if !sourceDirExists then RunResult(deleted, [], [], [], kept, None)
    else
      var selected := SelectStale(env.repo, SupportedSources(sources), kept);
      NoOrphanRewritten(env, sources, selected, kept, deleted);
      if selected == [] then
        var publication := if deleted != [] && env.repo then Some(CommitAndPush(env.repo, [], deleted, remote)) else None;
        RunResult(deleted, [], [], [], kept, publication)
      else
        var b := ProcessAll(env, selected, kept);
        ProcessAllFrame(env, selected, kept);
        var publication := if b.changed != [] || deleted != [] then Some(CommitAndPush(env.repo, b.changed, deleted, remote)) else None;
        RunResult(deleted, selected, b.outcomes, b.changed, b.folder, publication)
  }

  /** The outputs of supported sources are never orphans, so processing
      never recreates an output that cleanup deleted. */
  lemma NoOrphanRewritten(env: Env, sources: seq<SourceFile>, selected: seq<SourceFile>,
                          kept: Folder, deleted: seq<string>)
    requires forall s :: s in selected ==> s in sources && IsSupported(s.name)
    requires forall n :: n in deleted ==> IsOrphan(Names(sources), n)
    ensures forall n :: n in ProcessAll(env, selected, kept).changed ==>
      n !in deleted && !IsOrphan(Names(sources), n)
  {
    var b := ProcessAll(env, selected, kept);
    ProcessAllChanged(env, selected, kept);
    forall n | n in b.changed
      ensures !IsOrphan(Names(sources), n)
    {
      ChangedOutputsMembers(b.outcomes, selected, n);
      var i :| 0 <= i < |selected| && Changed(b.outcomes[i]) && n == OutputName(selected[i].name);
      OutputNameKeepsStem(sources, selected[i]);
    }
  }

  /** A supported source's output has that source's stem among the input
      stems. */
  lemma OutputNameKeepsStem(sources: seq<SourceFile>, s: SourceFile)
    requires s in sources && IsSupported(s.name)
    ensures !IsOrphan(Names(sources), OutputName(s.name))
  {
    var names := Names(sources);
    var k :| 0 <= k < |sources| && sources[k] == s;
    assert names[k] == s.name;
    OutputNameRoundTrip(s.name);
    assert Stem(s.name) in InputStems(names);
  }

  /** Cleanup and processing together leave no orphan in the output folder:
      every remaining output Markdown file has a supported source with its
      stem. */
  lemma NoOrphansLeft(env: Env, remote: Remote, sources: seq<SourceFile>,
                      folder: Folder, listing: seq<string>)
    requires forall n :: n in listing <==> n in folder
    ensures forall n :: n in Run(env, remote, true, sources, folder, listing).folder ==>
      !IsOrphan(Names(sources), n)
  {
    var r := Run(env, remote, true, sources, folder, listing);
    forall n | n in r.folder
      ensures !IsOrphan(Names(sources), n)
    {
      if n in r.changed {
        var kept := Remove(folder, r.deleted);
        var supported := SupportedSources(sources);
        assert r.selected == SelectStale(env.repo, supported, kept);
        NoOrphanRewritten(env, sources, r.selected, kept, r.deleted);
      }
    }
  }

  /** No source's processing failed. */
  predicate NoFailure(outcomes: seq<Outcome>) {
    forall i :: 0 <= i < |outcomes| ==> !outcomes[i].Failed?
  }

  /** Without a repository: the output of `s` exists and is not older than
      `s`, so the selection filter passes `s` over. */
  predicate Fresh(s: SourceFile, folder: Folder) {
    var out := OutputName(s.name);
    out in folder && folder[out].stamp.mtime >= s.stamp.mtime
  }

  lemma FreshIsNotSelected(s: SourceFile, folder: Folder)
    ensures Fresh(s, folder) <==> !Selected(false, s.stamp, Existing(folder, OutputName(s.name)))
  {
  }

  /** Without a repository and with a clock not behind `t`, processing `t`
      never makes an output older: a write happens only over a missing or
      older output and stamps it with `t`'s time or the current time. So
      every fresh source stays fresh, and `t` itself is fresh unless its
      processing failed. */
  lemma ProcessingKeepsFresh(env: Env, t: SourceFile, folder: Folder)
    requires !env.repo && env.now >= t.stamp.mtime
    ensures var p := ProcessSingleFile(env, t, folder);
      forall s :: Fresh(s, folder) ==> Fresh(s, p.folder)
    ensures var p := ProcessSingleFile(env, t, folder);
      !p.outcome.Failed? ==> Fresh(t, p.folder)
  {
  }

  lemma {:induction false} AllKeepFresh(env: Env, sources: seq<SourceFile>, folder: Folder, s: SourceFile)
    requires !env.repo && forall t :: t in sources ==> env.now >= t.stamp.mtime
    requires Fresh(s, folder)
    ensures Fresh(s, ProcessAll(env, sources, folder).folder)
    decreases |sources|
  {
    if |sources| > 0 {
      ProcessingKeepsFresh(env, sources[0], folder);
      AllKeepFresh(env, sources[1..], ProcessSingleFile(env, sources[0], folder).folder, s);
    }
  }

  lemma {:induction false} ProcessedAreFresh(env: Env, sources: seq<SourceFile>, folder: Folder, i: nat)
    requires !env.repo && forall t :: t in sources ==> env.now >= t.stamp.mtime
    requires i < |sources| && !ProcessAll(env, sources, folder).outcomes[i].Failed?
    ensures Fresh(sources[i], ProcessAll(env, sources, folder).folder)
    decreases |sources|
  {
    var p := ProcessSingleFile(env, sources[0], folder);
    var rest := ProcessAll(env, sources[1..], p.folder);
    var b := ProcessAll(env, sources, folder);
    assert b.outcomes == [p.outcome] + rest.outcomes && b.folder == rest.folder;
    assert forall t :: t in sources[1..] ==> t in sources;
    if i == 0 {
      assert !p.outcome.Failed?;
      ProcessingKeepsFresh(env, sources[0], folder);
      AllKeepFresh(env, sources[1..], p.folder, sources[0]);
    } else {
      assert rest.outcomes[i - 1] == b.outcomes[i] && sources[1..][i - 1] == sources[i];
      ProcessedAreFresh(env, sources[1..], p.folder, i - 1);
    }
  }

  /** Without a repository, after the processing loop over the selected
      candidates in which nothing failed, every candidate is fresh: the
      selected ones because they were processed, the others because they
      were fresh already and stay so. */
  lemma FreshAfterLoop(env: Env, candidates: seq<SourceFile>, kept: Folder, s: SourceFile)
    requires !env.repo && forall t :: t in candidates ==> env.now >= t.stamp.mtime
    requires NoFailure(ProcessAll(env, SelectStale(false, candidates, kept), kept).outcomes)
    requires s in candidates
    ensures Fresh(s, ProcessAll(env, SelectStale(false, candidates, kept), kept).folder)
  {
    var selected := SelectStale(false, candidates, kept);
    assert forall t :: t in selected ==> t in candidates;
    assert forall t :: t in selected ==> env.now >= t.stamp.mtime;
    if s in selected {
      var i :| 0 <= i < |selected| && selected[i] == s;
      var outcomes := ProcessAll(env, selected, kept).outcomes;
      assert NoFailure(outcomes);
      assert !outcomes[i].Failed?;
      ProcessedAreFresh(env, selected, kept, i);
    } else {
      FreshIsNotSelected(s, kept);
      AllKeepFresh(env, selected, kept, s);
    }
  }

  /** Without a repository, after a run in which nothing failed, every
      supported source is fresh. */
  lemma FreshAfterRun(env: Env, remote: Remote, sources: seq<SourceFile>, folder: Folder,
                      listing: seq<string>, s: SourceFile)
    requires !env.repo && forall t :: t in sources ==> env.now >= t.stamp.mtime
    requires forall n :: n in listing <==> n in folder
    requires NoFailure(Run(env, remote, true, sources, folder, listing).outcomes)
    requires s in sources && IsSupported(s.name)
    ensures Fresh(s, Run(env, remote, true, sources, folder, listing).folder)
  {
    var r := Run(env, remote, true, sources, folder, listing);
    var deleted := CleanupOrphanedOutputs(true, Names(sources), listing);
    var kept := Remove(folder, deleted);
    var candidates := SupportedSources(sources);
    var selected := SelectStale(false, candidates, kept);
    assert r.deleted == deleted && s in candidates;
    if selected == [] {
      assert r.folder == kept && s !in selected;
      FreshIsNotSelected(s, kept);
    } else {
      assert r.outcomes == ProcessAll(env, selected, kept).outcomes;
      assert r.folder == ProcessAll(env, selected, kept).folder;
      FreshAfterLoop(env, candidates, kept, s);
    }
  }

  /** Without a repository, a run over a folder with no orphans in which
      every supported source is fresh deletes, selects, changes and
      publishes nothing. */
  lemma SettledRunIsQuiet(env: Env, remote: Remote, sources: seq<SourceFile>, folder: Folder,
                          listing: seq<string>)
    requires !env.repo && forall n :: n in listing <==> n in folder
    requires forall n :: n in folder ==> !IsOrphan(Names(sources), n)
    requires forall s :: s in sources && IsSupported(s.name) ==> Fresh(s, folder)
    ensures var r := Run(env, remote, true, sources, folder, listing);
      r.deleted == [] && r.selected == [] && r.folder == folder && r.publication.None?
  {
    NothingToDelete(Names(sources), listing);
    var deleted := CleanupOrphanedOutputs(true, Names(sources), listing);
    assert deleted == [];
    assert Remove(folder, deleted) == folder;
    var candidates := SupportedSources(sources);
    var selected := SelectStale(false, candidates, folder);
    forall s | s in candidates
      ensures !Selected(false, s.stamp, Existing(folder, OutputName(s.name)))
    {
      FreshIsNotSelected(s, folder);
    }
    EmptyOrHasHead(selected);
    assert selected == [];
    assert Run(env, remote, true, sources, folder, listing) == RunResult([], [], [], [], folder, None);
  }

  /** Idempotence without a repository: when no processing failed and the
      clock is not behind any source, a second run over the folder the
      first one left deletes nothing, selects nothing, changes nothing and
      publishes nothing. */
  lemma RunIsIdempotent(env: Env, remote: Remote, sources: seq<SourceFile>, folder: Folder,
                        listing: seq<string>, relisting: seq<string>)
    requires !env.repo && forall s :: s in sources ==> env.now >= s.stamp.mtime
    requires forall n :: n in listing <==> n in folder
    requires var r := Run(env, remote, true, sources, folder, listing);
      NoFailure(r.outcomes) &&
      (forall n :: n in relisting <==> n in r.folder)
    ensures var r := Run(env, remote, true, sources, folder, listing);
      var again := Run(env, remote, true, sources, r.folder, relisting);
      again.deleted == [] && again.selected == [] && again.folder == r.folder &&
      again.publication.None?
  {
    var r := Run(env, remote, true, sources, folder, listing);
    NoOrphansLeft(env, remote, sources, folder, listing);
    forall s | s in sources && IsSupported(s.name)
      ensures Fresh(s, r.folder)
    {
      FreshAfterRun(env, remote, sources, folder, listing, s);
    }
    SettledRunIsQuiet(env, remote, sources, r.folder, relisting);
  }
}

=== FILE: publish.dfy ===
/** The publish step (`commit_and_push`): one commit for everything the run
    changed or deleted, then a push with a single token-authenticated
    retry. Repository operations are recorded as events; whether a push
    succeeds is an input. */
module Publish {

  /** Path of the repository on the hosting service. */
  const REPO_PATH: string := "github.com/isragogreen/doc-converter.git"

  /** The token-bearing HTTPS address of the repository. */
  function TokenUrl(token: string): string {
    "https://" + token + "@" + REPO_PATH
  }

  /** The remote as configured for this run and how its pushes turn out. */
  datatype Remote = Remote(
    /** The remote's URL before publishing. */
    url: string,
    /** `GITHUB_TOKEN`; "" when unset or empty. */
    token: string,
    /** Whether the push to the current URL succeeds. */
    primaryOk: bool,
    /** Whether the retry over the token URL succeeds. */
    retryOk: bool)

  /** A repository operation performed while publishing. */
  datatype Event =
    | Staged(added: seq<string>, removed: seq<string>)
    | Committed(files: nat, deletions: nat)
    | Pushed(url: string, ok: bool)
    | UrlSet(url: string)

  datatype Status = NoRepository | NothingToCommit | PushedPrimary | PushedWithToken | PushFailed

  /** The operations performed, the remote URL afterwards and the outcome. */
  datatype Publication = Publication(events: seq<Event>, url: string, status: Status)

  function CommitCount(events: seq<Event>): nat {
    if |events| == 0 then 0
    else (if events[0].Committed? then 1 else 0) + CommitCount(events[1..])
  }

  function PushCount(events: seq<Event>): nat {
    if |events| == 0 then 0
    else (if events[0].Pushed? then 1 else 0) + PushCount(events[1..])
  }

  /** The remote URL after replaying, in order, the URL changes among `events`. */
  function UrlAfter(url: string, events: seq<Event>): string
    decreases |events|
  {
    if |events| == 0 then url
    else UrlAfter(if events[0].UrlSet? then events[0].url else url, events[1..])
  }

  /** The push attempts after the commit: the push over the current URL, and
      on its failure with a token configured, a retry over the token URL
      that restores the original URL when it fails as well. */
  function PushWithFallback(remote: Remote): (p: Publication)
    ensures CommitCount(p.events) == 0
    ensures 1 <= PushCount(p.events) <= 2
    ensures p.url == UrlAfter(remote.url, p.events)
    ensures p.status.PushedPrimary? <==> remote.primaryOk
    ensures PushCount(p.events) == 2 <==> !remote.primaryOk && remote.token != ""
    ensures p.status.PushedWithToken? <==> !remote.primaryOk && remote.token != "" && remote.retryOk
    ensures p.url == (if p.status.PushedWithToken? then TokenUrl(remote.token) else remote.url)
    ensures p.status.PushFailed? <==> !remote.primaryOk && (remote.token == "" || !remote.retryOk)
    ensures p.status.PushedPrimary? || p.status.PushedWithToken? || p.status.PushFailed?
    ensures |p.events| > 0 && p.events[0] == Pushed(remote.url, remote.primaryOk)
    ensures PushCount(p.events) == 2 ==>
      |p.events| >= 3 &&
      p.events[..3] == [Pushed(remote.url, false), UrlSet(TokenUrl(remote.token)),
                        Pushed(TokenUrl(remote.token), remote.retryOk)]
  {
    var first := Pushed(remote.url, remote.primaryOk);
    Cons(first, []);
    if remote.primaryOk then Publication([first], remote.url, PushedPrimary)
    else if remote.token == "" then Publication([first], remote.url, PushFailed)
    else
      var token := TokenUrl(remote.token);
      var retry := Pushed(token, remote.retryOk);
      Cons(retry, []);
      Cons(UrlSet(token), [retry]);
      assert [UrlSet(token)] + [retry] == [UrlSet(token), retry];
      Cons(first, [UrlSet(token)] + [retry]);
      if remote.retryOk then
        assert UrlAfter(token, [retry]) == UrlAfter(token, []) == token;
        Publication([first] + ([UrlSet(token)] + [retry]), token, PushedWithToken)
      else
        var restore := [UrlSet(remote.url)];
        Cons(UrlSet(remote.url), []);
        Cons(retry, restore);
        Cons(UrlSet(token), [retry] + restore);
        Cons(first, [UrlSet(token)] + ([retry] + restore));
        assert UrlAfter(token, [retry] + restore) == UrlAfter(token, restore) == remote.url;
        Publication([first] + ([UrlSet(token)] + ([retry] + restore)), remote.url, PushFailed)
  }

  /** How the event summaries unfold over a sequence with `e` in front. */
  lemma Cons(e: Event, rest: seq<Event>)
    ensures CommitCount([e] + rest) == (if e.Committed? then 1 else 0) + CommitCount(rest)
    ensures PushCount([e] + rest) == (if e.Pushed? then 1 else 0) + PushCount(rest)
    ensures forall url :: UrlAfter(url, [e] + rest) == UrlAfter(if e.UrlSet? then e.url else url, rest)
  {
    assert ([e] + rest)[1..] == rest;
  }

  /** `commit_and_push`: nothing without a repository or without any change;
      otherwise the changed files are staged, the deleted ones removed, one
      commit is made and the push runs with its fallback. A failed push is a
      status, never an error. */
  function CommitAndPush(repo: bool, changed: seq<string>, deleted: seq<string>,
                         remote: Remote): (p: Publication)
    ensures !repo ==> p.status == NoRepository
    ensures repo && changed == [] && deleted == [] ==> p.status == NothingToCommit
    ensures !repo || (changed == [] && deleted == []) ==> p.events == [] && p.url == remote.url
    ensures CommitCount(p.events) == (if repo && (changed != [] || deleted != []) then 1 else 0)
    ensures CommitCount(p.events) == 1 ==>
      |p.events| >= 2 && p.events[..2] == [Staged(changed, deleted), Committed(|changed|, |deleted|)]
    ensures CommitCount(p.events) == 1 ==>
      var push := PushWithFallback(remote);
      p.events[2..] == push.events && p.status == push.status && p.url == push.url &&
      1 <= PushCount(p.events) <= 2
    ensures PushCount(p.events) <= 2
    ensures p.url == UrlAfter(remote.url, p.events)
    ensures p.url != remote.url ==> p.status == PushedWithToken && p.url == TokenUrl(remote.token)
  {
    if !repo then Publication([], remote.url, NoRepository)
    else if changed == [] && deleted == [] then Publication([], remote.url, NothingToCommit)
    else
      var commit := [Staged(changed, deleted), Committed(|changed|, |deleted|)];
      var push := PushWithFallback(remote);
      EventCounts(commit, push.events);
      UrlAfterAppend(remote.url, commit, push.events);
      assert commit[1..] == [Committed(|changed|, |deleted|)];
      assert (commit + push.events)[..2] == commit;
      assert (commit + push.events)[2..] == push.events;
      Publication(commit + push.events, push.url, push.status)
  }

  lemma {:induction false} EventCounts(a: seq<Event>, b: seq<Event>)
    ensures CommitCount(a + b) == CommitCount(a) + CommitCount(b)
    ensures PushCount(a + b) == PushCount(a) + PushCount(b)
    decreases |a|
  {
    if |a| == 0 {
      assert a + b == b;
    } else {
      EventCounts(a[1..], b);
      assert (a + b)[1..] == a[1..] + b;
    }
  }

  lemma {:induction false} UrlAfterAppend(url: string, a: seq<Event>, b: seq<Event>)
    ensures UrlAfter(url, a + b) == UrlAfter(UrlAfter(url, a), b)
    decreases |a|
  {
    if |a| == 0 {
      assert a + b == b;
    } else {
      UrlAfterAppend(if a[0].UrlSet? then a[0].url else url, a[1..], b);
      assert (a + b)[1..] == a[1..] + b;
    }
  }

  /** Primary push failing without a token: the commit exists locally, the
      status reports the failure and the remote is left as it was. */
  lemma FailedPushWithoutToken(changed: seq<string>, deleted: seq<string>, url: string)
    requires changed != [] || deleted != []
    ensures var p := CommitAndPush(true, changed, deleted, Remote(url, "", false, false));
      CommitCount(p.events) == 1 && p.status == PushFailed && p.url == url && PushCount(p.events) == 1
  {
    var p := CommitAndPush(true, changed, deleted, Remote(url, "", false, false));
    EventCounts([Staged(changed, deleted), Committed(|changed|, |deleted|)],
                PushWithFallback(Remote(url, "", false, false)).events);
  }
}

=== FILE: reconcile.dfy ===
/** Orphan reconciliation (`cleanup_orphaned_outputs`): deleting the output
    Markdown files whose stem no supported source has. Sources are file
    names found anywhere under the source folder; outputs are the names in
    the output folder, in listing order. */
module Reconcile {
  import opened Paths
  import opened Seqs

  /** The stems of the supported sources. */
  function InputStems(sources: seq<string>): set<string> {
    set n | n in sources && IsSupported(n) :: Stem(n)
  }

  /** An output that the `*.md` glob lists and no supported source claims. */
  predicate IsOrphan(sources: seq<string>, name: string) {
    MatchesMdGlob(name) && Stem(name) !in InputStems(sources)
  }

  /** The orphans among `listing`, in listing order. */
  function Orphans(sources: seq<string>, listing: seq<string>): (deleted: seq<string>)
    ensures |deleted| <= |listing|
    ensures forall n :: n in deleted <==> n in listing && IsOrphan(sources, n)
    decreases |listing|
  {
    if |listing| == 0 then []
    else
      var rest := Orphans(sources, listing[1..]);
      assert forall n :: n in listing <==> n == listing[0] || n in listing[1..];
      if IsOrphan(sources, listing[0]) then [listing[0]] + rest else rest
  }

  /** The deletion loop keeps the listing order: the orphans of two listings
      one after the other are the orphans of the first followed by those of
      the second, and a single name is deleted exactly when it is an orphan.
      Together these determine the deletion list as an order-preserving
      filter of the listing. */
  lemma {:induction false} OrphansInListingOrder(sources: seq<string>, a: seq<string>, b: seq<string>)
    ensures Orphans(sources, a + b) == Orphans(sources, a) + Orphans(sources, b)
    ensures |a| == 1 ==> Orphans(sources, a) == if IsOrphan(sources, a[0]) then a else []
    decreases |a|
  {
    if |a| == 0 {
      assert a + b == b;
    } else {
      OrphansInListingOrder(sources, a[1..], b);
      OrphansAppendStep(sources, a, b);
      if |a| == 1 {
        assert a == [a[0]];
        OrphanSingle(sources, a[0]);
      }
    }
  }

  /** The inductive step of `OrphansInListingOrder`. */
  lemma OrphansAppendStep(sources: seq<string>, a: seq<string>, b: seq<string>)
    requires |a| > 0
    requires Orphans(sources, a[1..] + b) == Orphans(sources, a[1..]) + Orphans(sources, b)
    ensures Orphans(sources, a + b) == Orphans(sources, a) + Orphans(sources, b)
  {
    var ab := a + b;
    var head := if IsOrphan(sources, a[0]) then [a[0]] else [];
    HeadOfConcat(a, b);
    OrphansCons(sources, a);
    OrphansCons(sources, ab);
    Regroup(Orphans(sources, ab), Orphans(sources, a), head,
            Orphans(sources, a[1..]), Orphans(sources, b));
  }

  /** A single listed name is deleted exactly when it is an orphan. */
  lemma OrphanSingle(sources: seq<string>, x: string)
    ensures Orphans(sources, [x]) == if IsOrphan(sources, x) then [x] else []
  {
    OrphansCons(sources, [x]);
    assert [x][1..] == [];
  }

  /** One step of the deletion loop: the first listed name, when it is an
      orphan, comes first. */
  lemma OrphansCons(sources: seq<string>, listing: seq<string>)
    requires |listing| > 0
    ensures Orphans(sources, listing) ==
      (if IsOrphan(sources, listing[0]) then [listing[0]] else []) + Orphans(sources, listing[1..])
  {
  }

  /** `cleanup_orphaned_outputs`: nothing when the source folder is missing,
      otherwise the orphans, which are deleted and returned. */
  function CleanupOrphanedOutputs(sourceDirExists: bool, sources: seq<string>,
                                  listing: seq<string>): (deleted: seq<string>)
    ensures !sourceDirExists ==> deleted == []
    ensures sourceDirExists ==> forall n :: n in deleted <==>
      n in listing && MatchesMdGlob(n) &&
      forall src :: src in sources && IsSupported(src) ==> Stem(src) != Stem(n)
  {
    if sourceDirExists then Orphans(sources, listing) else []
  }

  /** What survives cleanup is either not an output Markdown file or has the
      stem of some supported source, and every listed file is deleted or
      survives, never both. */
  lemma SurvivorsHaveSources(sources: seq<string>, listing: seq<string>, n: string)
    requires n in listing && n !in CleanupOrphanedOutputs(true, sources, listing)
    ensures MatchesMdGlob(n) ==> exists src :: src in sources && IsSupported(src) && Stem(src) == Stem(n)
  {
  }

  /** With outputs a.md, b.md and c.md and sources a.pdf and c.txt, exactly
      b.md is deleted (for any three distinct one-character stems). */
  lemma DeletesExactlyB(a: char, b: char, c: char)
    requires a != '.' && b != '.' && c != '.' && a != b && b != c && a != c
    ensures forall n ::
      n in CleanupOrphanedOutputs(true, [[a] + ".pdf", [c] + ".txt"],
                                  [[a] + ".md", [b] + ".md", [c] + ".md"])
      <==> n == [b] + ".md"
  {
    var p, q := [a] + ".pdf", [c] + ".txt";
    var sources := [p, q];
    SupportedShortName(a, ".pdf");
    SupportedShortName(c, ".txt");
    StemsOfTwo(p, q, [a]);
    StemsOfTwo(p, q, [b]);
    StemsOfTwo(p, q, [c]);
    ExampleOutput(sources, a, false);
    ExampleOutput(sources, b, true);
    ExampleOutput(sources, c, false);
    OnlyTheUnclaimed(sources, [a] + ".md", [b] + ".md", [c] + ".md");
  }

  /** Of three listed outputs, only the unclaimed middle one is deleted. */
  lemma OnlyTheUnclaimed(sources: seq<string>, x: string, y: string, z: string)
    requires !IsOrphan(sources, x) && IsOrphan(sources, y) && !IsOrphan(sources, z)
    ensures forall n :: n in Orphans(sources, [x, y, z]) <==> n == y
  {
    assert forall n :: n in [x, y, z] <==> n == x || n == y || n == z;
  }

  /** The input stems of two sources. */
  lemma StemsOfTwo(p: string, q: string, t: string)
    ensures t in InputStems([p, q]) <==>
      (IsSupported(p) && Stem(p) == t) || (IsSupported(q) && Stem(q) == t)
  {
    assert forall n :: n in [p, q] <==> n == p || n == q;
  }

  /** A one-character stem followed by a supported lower-case extension. */
  lemma SupportedShortName(x: char, ext: string)
    requires x != '.' && ext in {".pdf", ".txt"}
    ensures IsSupported([x] + ext) && Stem([x] + ext) == [x]
  {
    ShortName([x] + ext);
    assert ([x] + ext)[1..] == ext;
    LowerKeepsLowercase(ext);
  }

  lemma ExampleOutput(sources: seq<string>, x: char, orphan: bool)
    requires x != '.'
    requires [x] in InputStems(sources) <==> !orphan
    ensures IsOrphan(sources, [x] + ".md") <==> orphan
  {
    ShortName([x] + ".md");
    assert ([x] + ".md")[1..] == ".md";
  }

  /** The stem and suffix of a name `x.ext` with a one-character stem and a
      two- or three-character extension. */
  lemma ShortName(n: string)
    requires |n| == 4 || |n| == 5
    requires n[0] != '.' && n[1] == '.' && forall k :: 2 <= k < |n| ==> n[k] != '.'
    ensures Stem(n) == n[..1] && Suffix(n) == n[1..]
  {
    if |n| == 5 {
      assert LastDot(n[..4]) == LastDot(n[..4][..3]);
      assert n[..4][..3] == n[..3];
    }
    assert LastDot(n[..3]) == LastDot(n[..3][..2]);
    assert n[..3][..2] == n[..2];
  }

  /** Cleanup of a listing without orphans deletes nothing. */
  lemma {:induction false} NothingToDelete(names: seq<string>, listing: seq<string>)
    requires forall n :: n in listing ==> !IsOrphan(names, n)
    ensures Orphans(names, listing) == []
    decreases |listing|
  {
    if |listing| > 0 {
      NothingToDelete(names, listing[1..]);
    }
  }
}

=== FILE: seqs.dfy ===
/** Facts about sequences in general, used by the proofs of the other
    modules. */
module Seqs {

  /** Concatenation is associative. */
  lemma AppendAssoc<T>(a: seq<T>, b: seq<T>, c: seq<T>)
    ensures a + (b + c) == (a + b) + c
  {
  }

  /** Two adjacent slices from the start make one. */
  lemma SliceConcat<T>(s: seq<T>, a: nat, b: nat)
    requires a <= b <= |s|
    ensures s[..a] + s[a..b] == s[..b]
  {
  }

  /** A prefix of a suffix is a slice. */
  lemma SliceOfSuffix<T>(s: seq<T>, i: nat, j: nat, t: seq<T>, r: seq<T>)
    requires i <= |s| && t == s[i..] && |r| <= |t| && r == t[..|r|] && j == i + |r|
    ensures r == s[i..j]
  {
    forall k | 0 <= k < |r|
      ensures r[k] == s[i + k]
    {
      assert r[k] == t[k];
    }
  }

  /** The head and the rest of a concatenation with a non-empty front. */
  lemma HeadOfConcat<T>(a: seq<T>, b: seq<T>)
    requires |a| > 0
    ensures (a + b)[0] == a[0] && (a + b)[1..] == a[1..] + b
  {
  }

  /** Regrouping a concatenation of three pieces. */
  lemma Regroup<T>(whole: seq<T>, front: seq<T>, head: seq<T>, mid: seq<T>, back: seq<T>)
    requires whole == head + (mid + back) && front == head + mid
    ensures whole == front + back
  {
    assert head + (mid + back) == (head + mid) + back;
  }

  /** A sequence is empty or holds its first element. */
  lemma EmptyOrHasHead<T>(s: seq<T>)
    ensures s == [] || s[0] in s
  {
  }
}

=== FILE: staleness.dfy ===
/** The staleness decision: which sources are selected for processing and
    which ones processing then skips as up to date. Two change markers are in
    use: the time of the last commit touching a path (when a repository is
    available) and the file's modification time (otherwise). Timestamps are
    integers; only `<=` and `>` are applied to them. */
module Staleness {
  import opened Wrappers

  /** What the repository history says about a path. */
  datatype Lookup =
      /** The path has no commit, or the history query raised. */
    | NoCommit
    | CommittedAt(time: int)

  /** What can be observed about an existing file. */
  datatype FileStamp = FileStamp(mtime: int, history: Lookup)

  /** `get_file_commit_time`: the commit time of an existing path when a
      repository is available, 0 in every other case. `repo` stands for "git
      is importable and a repository object exists"; `f` is None when the
      file does not exist. */
  function CommitTime(repo: bool, f: Option<FileStamp>): (t: int)
    ensures repo && f.Some? && f.value.history.CommittedAt? ==> t == f.value.history.time
    ensures !repo || f.None? || f.value.history.NoCommit? ==> t == 0
  {
    if !repo || f.None? then 0
    else match f.value.history
      case NoCommit => 0
      case CommittedAt(time) => time
  }

  /** The selection filter of `main`: a supported source is processed when
      its output is missing or its marker is newer than the output's. */
  predicate Selected(repo: bool, src: FileStamp, out: Option<FileStamp>) {
    if repo then CommitTime(repo, Some(src)) > CommitTime(repo, out) || out.None?
    else out.None? || src.mtime > out.value.mtime
  }

  /** The up-to-date test of `process_single_file`, as written. */
  predicate Skip(repo: bool, src: FileStamp, out: Option<FileStamp>) {
    if repo then
      var inTime := CommitTime(repo, Some(src));
      var outTime := if out.Some? then CommitTime(repo, out) else 0;
      inTime <= outTime
    else out.Some? && src.mtime <= out.value.mtime
  }

  /** Without a repository the skip test is exactly the negation of the
      selection filter. */
  lemma FilesystemSkipIsNotSelected(src: FileStamp, out: Option<FileStamp>)
    ensures Selected(false, src, out) <==> !Skip(false, src, out)
  {
  }

  /** With a repository, a file is skipped exactly when its commit time is
      not newer than its output's, a missing output or a failed lookup
      counting as 0: equal markers never trigger reprocessing. */
  lemma GitSkipIsNotNewer(src: FileStamp, out: Option<FileStamp>)
    ensures Skip(true, src, out) <==> CommitTime(true, Some(src)) <= CommitTime(true, out)
    ensures CommitTime(true, Some(src)) == CommitTime(true, out) ==> Skip(true, src, out)
  {
  }

  /** Everything the selection filter leaves out would also be skipped; the
      two disagree only for a missing output in repository mode whose source
      has no positive commit time: such a file is selected and then
      skipped. */
  lemma SelectedYetSkipped(repo: bool, src: FileStamp, out: Option<FileStamp>)
    ensures !Selected(repo, src, out) ==> Skip(repo, src, out)
    ensures Selected(repo, src, out) && Skip(repo, src, out) <==>
      repo && out.None? && CommitTime(repo, Some(src)) <= 0
  {
  }

  /** A concrete case of the disagreement: a source whose history lookup
      fails and whose output does not exist yet. */
  lemma UnconvertibleSource()
    ensures var src := FileStamp(1, NoCommit);
      Selected(true, src, None) && Skip(true, src, None)
  {
  }

  /** The up-to-date test as intended: skip only an existing output whose
      marker is not older than the source's. */
  predicate SkipIntended(repo: bool, src: FileStamp, out: Option<FileStamp>) {
    out.Some? &&
    if repo then CommitTime(repo, Some(src)) <= CommitTime(repo, out)
    else src.mtime <= out.value.mtime
  }

  /** The intended test agrees with the selection filter in both modes: a
      missing output is always processed, and equal markers never are. */
  lemma SkipIntendedIsNotSelected(repo: bool, src: FileStamp, out: Option<FileStamp>)
    ensures SkipIntended(repo, src, out) <==> !Selected(repo, src, out)
    ensures out.None? ==> !SkipIntended(repo, src, out)
    ensures out.Some? && !repo && src.mtime == out.value.mtime ==> SkipIntended(repo, src, out)
  {
  }
}

=== FILE: text.dfy ===
/** Character-level string helpers shared by the model: Python's
    `str.strip()`, `str.startswith()`, `str.endswith()` and a minimum on
    integers. */
module Text {
  import opened Seqs

  function Min(a: int, b: int): int {
    if a <= b then a else b
  }

  /** Python's `str.isspace()` for one character: the code points that
      `str.strip()` with no argument removes. */
  predicate IsSpace(c: char) {
    var n := c as int;
    || (0x09 <= n <= 0x0D)
    || (0x1C <= n <= 0x20)
    || n == 0x85 || n == 0xA0 || n == 0x1680
    || (0x2000 <= n <= 0x200A)
    || n == 0x2028 || n == 0x2029 || n == 0x202F || n == 0x205F || n == 0x3000
  }

  /** Every character of `s[lo..hi]` is whitespace. */
  predicate AllSpace(s: string, lo: nat, hi: nat)
    requires lo <= hi <= |s|
  {
    forall k :: lo <= k < hi ==> IsSpace(s[k])
  }

  /** Neither end of `s` is whitespace. */
  predicate Trimmed(s: string) {
    s == [] || (!IsSpace(s[0]) && !IsSpace(s[|s| - 1]))
  }

  /** `s.startswith(prefix)`. */
  predicate StartsWith(s: string, prefix: string) {
    |prefix| <= |s| && s[..|prefix|] == prefix
  }

  /** `s.endswith(suffix)`. */
  predicate EndsWith(s: string, suffix: string) {
    |suffix| <= |s| && s[|s| - |suffix|..] == suffix
  }

  /** Drops leading whitespace. */
  function TrimStart(s: string): (r: string)
    ensures |r| <= |s| && r == s[|s| - |r|..]
    ensures r == [] || !IsSpace(r[0])
    ensures forall k :: 0 <= k < |s| - |r| ==> IsSpace(s[k])
  {
    if |s| > 0 && IsSpace(s[0]) then TrimStart(s[1..]) else s
  }

  /** Drops trailing whitespace. */
  function TrimEnd(s: string): (r: string)
    ensures |r| <= |s| && r == s[..|r|]
    ensures r == [] || !IsSpace(r[|r| - 1])
    ensures forall k :: |r| <= k < |s| ==> IsSpace(s[k])
  {
    if |s| > 0 && IsSpace(s[|s| - 1]) then TrimEnd(s[..|s| - 1]) else s
  }

  /** Python's `s.strip()`: the text between the leading and the trailing
      whitespace runs. */
  function Strip(s: string): (r: string)
    ensures |r| <= |s| && Trimmed(r)
    ensures r == [] <==> forall k :: 0 <= k < |s| ==> IsSpace(s[k])
    ensures Trimmed(s) ==> r == s
    ensures exists i, j :: 0 <= i <= j <= |s| && r == s[i..j] && AllSpace(s, 0, i) && AllSpace(s, j, |s|)
  {
    var t := TrimStart(s);
    var r := TrimEnd(t);
    StripIsSlice(s, t, r);
    r
  }

  /** The stripped text is a slice of the input with whitespace on both
      sides of it. */
  lemma StripIsSlice(s: string, t: string, r: string)
    requires t == TrimStart(s) && r == TrimEnd(t)
    ensures exists i, j :: 0 <= i <= j <= |s| && r == s[i..j] && AllSpace(s, 0, i) && AllSpace(s, j, |s|)
  {
    var i := |s| - |t|;
    var j := i + |r|;
    SliceOfSuffix(s, i, j, t, r);
    SpaceAfter(s, i, j, t, |r|);
    BetweenRuns(s, i, j, r);
  }

  /** Whitespace at the end of a suffix of `s` is whitespace at the end of
      `s`. */
  lemma SpaceAfter(s: string, i: nat, j: nat, t: string, n: nat)
    requires i <= |s| && t == s[i..] && n <= |t| && j == i + n
    requires AllSpace(t, n, |t|)
    ensures AllSpace(s, j, |s|)
  {
    forall k | j <= k < |s|
      ensures IsSpace(s[k])
    {
      assert s[k] == t[k - i];
    }
  }

  /** A slice with whitespace before and after it is a witness of the
      shape `StripIsSlice` states. */
  lemma BetweenRuns(s: string, i: nat, j: nat, r: string)
    requires i <= j <= |s| && r == s[i..j]
    requires AllSpace(s, 0, i) && AllSpace(s, j, |s|)
    ensures exists i, j :: 0 <= i <= j <= |s| && r == s[i..j] && AllSpace(s, 0, i) && AllSpace(s, j, |s|)
  {
  }

  /** Stripping twice is stripping once. */
  lemma StripIdempotent(s: string)
    ensures Strip(Strip(s)) == Strip(s)
  {
  }
}

=== FILE: wrappers.dfy ===
/** The optional-value datatype used for results that may be absent
    (Python's `None`). */
module Wrappers {

  datatype Option<+T> = None | Some(value: T) {

    /** Returns the value in Some, or `default` when None. */
    function GetOr(default: T): T {
      match this
      case Some(v) => v
      case None() => default
    }
  }
}
